=== FILE: README.md ===
# NutriAI meal analysis — a Dafny model

This project models the rule-bearing core of NutriAI, a meal-analysis web application
with a JavaScript client and a Flask server.

On the client side (frontend/script.js) it models three things:

- the list of foods the user composes into a meal, with its add, quantity-step, remove,
  clear-all, save and demo-load edits;
- the guards of the "analyze" button;
- the client's own analysis (`generateMockAnalysis`). This looks each food up in a
  12-row table by first substring match, sums the quantity-weighted values, applies a
  random variance and floors, then computes three clamped sub-scores, a meal score, a
  first-match risk level, a BMI category and a five-entry recommendation list.

On the server side (backend/app.py) it models:

- the food-matching and totalling loop of `analyze_meal`, with its two request checks;
- the scoring helpers: the additive risk score, the 0–100 meal score, the letter grade,
  the BMI category and the BMI distribution;
- the logging streak;
- the filter, newest-first sort and pagination of the meal history listing.

Modules:

| module | file | contents |
|---|---|---|
| `Results` | results.dfy | `Option` (absent JSON field, undefined JS value) and `Result` |
| `Text` | text.dfy | ASCII lower-casing, substring search, JavaScript `trim` and Python `strip` |
| `Rounding` | rounding.dfy | JavaScript `Math.round`, Python `round` (ties to even), rounding to a tenth |
| `Bmi` | bmi.dfy | the four BMI categories both sides use |
| `FoodList` | food_list.dfy | the client's food list and its edits |
| `MealAnalysis` | meal_analysis.dfy | the client's analysis and the analyze guards |
| `ServerNutrition` | server_nutrition.dfy | the server's food table, matching and totals |
| `ServerScoring` | server_scoring.dfy | risk score, meal score, grade, BMI category, BMI distribution |
| `MealHistory` | meal_history.dfy | streak, meal listing |
| `BmiAgreement` | bmi_agreement.dfy | the client's and the server's BMI rules compared |

Modelling choices:

- **Random draws.** The client draws four `Math.random()` values. They become a
  parameter, `Draws`, so the analysis is a function of the list, the BMI and the draws.
  Each variance factor is `0.8 + r * 0.4` as in the code, so it lies in [0.8, 1.2).
- **Undefined BMI.** A BMI that is `undefined` in the client is `None`. Every JavaScript
  comparison with it is false, so it lands on Normal.
- **Rounding.** Numbers are exact reals. The rounding operators are written out:
  `Math.round(x)` is `floor(x + 1/2)`, and Python's `round` rounds ties to even.
- **Dates.** Timestamps and calendar days are integers. The server keeps ISO-8601
  strings of one format, so string order and time order agree.
- **The request body.** Each server request item has optional `name`, `quantity` and
  `unit` fields, with the server's defaults ("", 1 and "serving").

Two details of the code that the proofs make explicit:

- **Server matching runs both ways.** The server's substring test goes in both
  directions. So an empty or missing food name matches the first table row, `apple`
  (`ServerNutrition.EmptyNameMatchesFirstKey`).
- **The two BMI rules agree; the risk score does not.** The client and the server write
  their BMI chains differently but classify every BMI alike
  (`BmiAgreement.ClientMatchesServer`). The server's risk score uses strict bounds
  (> 25, > 30), while the category uses inclusive ones (≥ 25, ≥ 30). So a BMI of
  exactly 30 is "Obese" yet adds only the overweight factor
  (`BmiAgreement.BoundaryBmiReadsDifferently`).

## Model

| member | source | states |
|---|---|---|
| FoodList.AddFoodItem | frontend/script.js:508-548 | input is trimmed; empty input changes nothing and is refused; a name already listed up to case changes nothing; otherwise exactly one row (the trimmed name, quantity 1, unit "serving") is appended and the name is then listed |
| FoodList.AddFoodItemByName | frontend/script.js:551-570 | same as the text-box add but without trimming; only the empty name is turned away, silently and with the list unchanged |
| FoodList.Insert | frontend/script.js:524-538 | a name already listed up to case leaves the list as it is; otherwise exactly one row (the name, one serving) is appended; either way the name is listed afterwards |
| FoodList.IncreaseQuantity | frontend/script.js:615-621 | an in-range row gains 0.5 with name and unit kept; every other row, and the whole list for an out-of-range index, is unchanged |
| FoodList.DecreaseQuantity | frontend/script.js:623-633 | above 0.5 the row loses 0.5 and nothing else changes; at or below 0.5 the row is removed; out of range nothing changes |
| FoodList.RemoveFoodItem | frontend/script.js:636-643 | an in-range index removes exactly that row, keeping the others in order; out of range nothing changes |
| FoodList.ConfirmClearAll | frontend/script.js:663-669 | the list becomes empty and the reported count is the old length |
| FoodList.SaveMeal | frontend/script.js:672-704 | an empty list is refused first, then a list not yet analysed; on an analysed non-empty list a cancelled or empty meal name abandons the save; only a completed save empties the list, and every other outcome leaves it unchanged |
| FoodList.LoadDemoData | frontend/script.js:1110-1123 | an empty list receives one serving of each of the five sample foods, in order; a non-empty list is kept |
| FoodList.DemoListValid | frontend/script.js:1112-1121 | the five sample rows have names distinct up to case and valid quantities |
| FoodList.ReachableListsAreValid | frontend/script.js:508-669 | every list reachable from the empty list by any sequence of the eight edits (both adds, step up, step down, remove, clear all, save, demo load) has no two names equal up to case and only quantities that are whole multiples of 0.5 and at least 0.5 |
| FoodList.ApplyAllPreservesValid | frontend/script.js:508-669 | any sequence of edits keeps a valid list valid |
| FoodList.InsertPreservesValid | frontend/script.js:524-538 | the duplicate check keeps names distinct up to case |
| FoodList.IncreasePreservesValid | frontend/script.js:615-621 | stepping up keeps quantities on the half-serving grid |
| FoodList.DecreasePreservesValid | frontend/script.js:623-633 | stepping down never leaves a quantity below 0.5: it removes the row instead |
| FoodList.RemovePreservesValid | frontend/script.js:636-643 | removing a row keeps the list valid |
| FoodList.AddIdempotent | frontend/script.js:508-548 | adding the same input twice leaves the same list as adding it once |
| FoodList.IncreaseThenDecrease | frontend/script.js:615-633 | on a valid list, a step up followed by a step down at the same index restores the list |
| FoodList.DecreaseAtFloorRemoves | frontend/script.js:623-633 | decreasing a row at 0.5 shortens the list by one and its name is no longer listed |
| FoodList.RemoveForgetsName | frontend/script.js:636-643 | after removal from a valid list the removed name is no longer listed |
| FoodList.HalfStepUp | frontend/script.js:617 | adding 0.5 to a valid quantity gives a valid quantity |
| FoodList.HalfStepDown | frontend/script.js:625-626 | subtracting 0.5 from a valid quantity above 0.5 gives a valid quantity |
| MealAnalysis.MatchKey | frontend/script.js:830-832 | the chosen row is the first table row, in declaration order, whose key occurs in the lower-cased name; no row means no key occurs |
| MealAnalysis.FindKeyFrom | frontend/script.js:830-832 | the first-match search from a given row on |
| MealAnalysis.AggregateSingle | frontend/script.js:806-847 | no items give all-zero totals; one item contributes its row's values (or the 150/10/20/5 default) times its quantity |
| MealAnalysis.AggregateAppend | frontend/script.js:829-847 | totals are additive over concatenation of lists |
| MealAnalysis.Aggregate | frontend/script.js:829-847 | with no negative quantity in the list, no base total is negative |
| MealAnalysis.PerServing | frontend/script.js:830-846 | the per-serving values are those of the first table row whose key occurs in the lower-cased name, or the unknown-food default when no key occurs; they are non-negative |
| MealAnalysis.ContributionNonNegative | frontend/script.js:833-845 | a non-negative quantity contributes non-negative amounts |
| MealAnalysis.FoodTableNonNegative | frontend/script.js:813-826 | every table value is non-negative |
| MealAnalysis.TableOrderDecides | frontend/script.js:813-832 | "Milk Bread" takes the bread row, which comes first in the table, not the milk row |
| MealAnalysis.BreadShadowsMilk | frontend/script.js:813-832 | any name containing "bread" matches the bread row or an earlier one |
| MealAnalysis.ChickenBreastExample | frontend/script.js:816-840 | two servings of chicken breast total 330 kcal, 62 g protein, 0 g carbs, 7.2 g fat |
| MealAnalysis.ChickenBreastRow | frontend/script.js:816 | the chicken breast row is 165/31/0/3.6 |
| MealAnalysis.ChickenBreastNeutralDraws | frontend/script.js:850-853 | with every draw at 0.5 those totals come out unchanged except that carbohydrates rise to the floor of 10 |
| MealAnalysis.UnknownFoodExample | frontend/script.js:841-846 | an unmatched name contributes the default 150/10/20/5 per serving |
| MealAnalysis.MysteryFoodUnmatched | frontend/script.js:813-832 | "mystery food" contains no table key |
| MealAnalysis.VarianceFactor | frontend/script.js:850-853 | a draw in [0, 1) gives a factor in [0.8, 1.2) |
| MealAnalysis.ApplyVariance | frontend/script.js:850-853 | calories are at least 200, protein at least 5, carbohydrates at least 10, fat at least 2; the last three are whole tenths |
| MealAnalysis.VarianceBounds | frontend/script.js:850-853 | for draws in [0, 1), each varied value lies between the floor-or-rounded 0.8× and 1.2× of its base |
| MealAnalysis.VariedWholeBounds | frontend/script.js:850 | varied calories lie between the rounded 0.8× and 1.2× of the base, or at the floor |
| MealAnalysis.VariedTenthsBounds | frontend/script.js:851-853 | a varied macronutrient lies between the tenth-rounded 0.8× and 1.2× of its base, or at its floor |
| MealAnalysis.OrderedRounding | frontend/script.js:850-853 | both roundings the client uses are monotone |
| MealAnalysis.ScaledBetween | frontend/script.js:850-853 | a non-negative base times a factor from a unit draw lies in [0.8, 1.2] times the base |
| MealAnalysis.Clamp | frontend/script.js:856-858 | the result lies in [60, 100] and equals the input when the input does |
| MealAnalysis.CalorieScore | frontend/script.js:856 | the calorie sub-score lies in [60, 100] |
| MealAnalysis.ProteinScore | frontend/script.js:857 | the protein sub-score lies in [60, 100] |
| MealAnalysis.BalanceScore | frontend/script.js:858 | the balance sub-score lies in [60, 100] |
| MealAnalysis.MealScore | frontend/script.js:856-859 | the meal score is an integer in [60, 100] |
| MealAnalysis.CalorieScoreExtremes | frontend/script.js:856 | the calorie sub-score is 100 exactly at 500 kcal and 60 exactly at or beyond 400 kcal away |
| MealAnalysis.ProteinScoreExtremes | frontend/script.js:857 | the protein sub-score is 100 exactly from 50 g and 60 exactly up to 30 g |
| MealAnalysis.BalanceScorePerfect | frontend/script.js:858 | the balance sub-score is 100 exactly when protein is half the carbohydrates and fat is 15 g |
| MealAnalysis.AssessRisk | frontend/script.js:862-896 | High exactly above 800 kcal; otherwise Medium exactly for fat above 30 or carbohydrates above 100 with protein below 20; otherwise Low; score 0/1/2 follows the level; each of the four details texts appears exactly when its own rule fired |
| MealAnalysis.RiskScore | frontend/script.js:896 | 0, 1 and 2 exactly for Low, Medium and High |
| MealAnalysis.RiskScoreMonotone | frontend/script.js:862-874 | more calories, fat or carbohydrates, or less protein, never lower the risk score |
| MealAnalysis.ClientBmiCategory | frontend/script.js:877-881 | below 18.5 Underweight, [18.5, 25) Normal, [25, 30) Overweight, from 30 Obese; an undefined BMI is Normal |
| MealAnalysis.Recommendations | frontend/script.js:910-916 | always five entries; first and last fixed; the middle three chosen exactly by calories above 600, protein below 20 and carbohydrates above 100 |
| MealAnalysis.RecommendationsDependOnThresholdsOnly | frontend/script.js:910-916 | two meals on the same side of the three thresholds get the same list |
| MealAnalysis.Names | frontend/script.js:803 | one name per item, in list order |
| MealAnalysis.Join | frontend/script.js:803 | no names join to the empty string and a single name is its own join |
| MealAnalysis.JoinAppend | frontend/script.js:803 | joining two non-empty runs of names is joining each with one separator between them, so every name appears, in order, separated by ", " |
| MealAnalysis.GenerateMockAnalysis | frontend/script.js:802-927 | the result's nutrition is the varied aggregate with its floors; the meal score, the risk assessment and the recommendations are the ones those varied totals determine; the fixed food suggestions and daily targets; the given BMI with its category; the joined names |
| MealAnalysis.AnalyzeMeal | frontend/script.js:717-775 | refused while an analysis runs, then refused for an empty list; otherwise the analysis of the list |
| ServerNutrition.FoodName | backend/app.py:158 | the matching name is the lower-cased given name (empty when missing) with exactly its leading and trailing white space removed: no upper-case ASCII letter, no white space at either end, no longer than the given name |
| ServerNutrition.Lookup | backend/app.py:162-172 | the values are the default exactly when no key matches either way; otherwise they are those of the first entry, in table order, whose key matches |
| ServerNutrition.Process | backend/app.py:158-187 | the entry keeps the matching name, the quantity (default 1) and the unit (default "serving"), and its values are the looked-up ones times the quantity |
| ServerNutrition.FindEntryFrom | backend/app.py:164-168 | the chosen entry is the first in table order whose key occurs in the name or the name in the key; none means no key matches either way |
| ServerNutrition.EmptyNameMatchesFirstKey | backend/app.py:160-168 | an empty name matches the first entry, apple |
| ServerNutrition.MissingNameMatchesApple | backend/app.py:160-174 | an item without a name gets apple's values times its quantity |
| ServerNutrition.EggMatchesEggs | backend/app.py:165-168 | "egg" is found inside the key "eggs" |
| ServerNutrition.Accumulate | backend/app.py:159-187 | one processed entry per request item, in order, each with its lower-cased and stripped name, quantity (default 1), unit (default "serving") and quantity-scaled values |
| ServerNutrition.TotalsAreSumOfItems | backend/app.py:150-187 | the five totals are the sums of the processed entries' values |
| ServerNutrition.SumNutritionAppend | backend/app.py:178-182 | adding an entry adds its values to the running totals |
| ServerNutrition.AnalyzeFoodItems | backend/app.py:138-187 | a missing item list and an empty one are refused with their two errors; otherwise the result is the matching-and-totalling loop over the items: one processed entry per item with totals equal to their sum |
| ServerScoring.CalculateRiskScore | backend/app.py:274-313 | the score is 2/1/0 for calories above 1000/800, plus 2/1/0 for fat above 40/25, plus 1 for carbohydrates above 100, plus 2/1/0 for BMI above 30/25; it is also the sum of the reported factors' weights and lies in [0, 7]; at most four factors; Low exactly at 0, Moderate at 1–2, High at 3–4, Very High from 5 |
| ServerScoring.RiskFactorsExact | backend/app.py:279-302 | each of the seven factors is reported exactly when its own condition holds, and no factor is reported twice |
| ServerScoring.TiersInCheckOrder | backend/app.py:279-302 | the factors come in the order calories, fat, carbohydrates, BMI, at most one for each |
| ServerScoring.FactorTextsDistinct | backend/app.py:279-302 | no text appears twice in the reported factor list |
| ServerScoring.FactorReported | backend/app.py:279-302 | a factor is in the list exactly when it is in its own tier |
| ServerScoring.RiskScoreMonotone | backend/app.py:279-302 | higher calories, fat, carbohydrates or BMI never lower the score |
| ServerScoring.TotalWeightAppend | backend/app.py:276-302 | weights add over concatenated factor lists |
| ServerScoring.LevelOf | backend/app.py:304-311 | the four level bands of the score |
| ServerScoring.RawMealScore | backend/app.py:317-333 | the unrounded meal score lies in [55, 120] |
| ServerScoring.CalculateMealScore | backend/app.py:315-336 | the meal score is an integer in [0, 100], and in fact never below 55 |
| ServerScoring.MealScoreMonotone | backend/app.py:315-336 | fewer calories, less fat, more protein or more fiber never lower the score |
| ServerScoring.FullMealScore | backend/app.py:315-336 | at most 800 kcal with at least 40 g protein and 10 g fiber scores 100 |
| ServerScoring.GetMealGrade | backend/app.py:371-382 | A from 90, B in [80, 90), C in [70, 80), D in [60, 70), F below 60 |
| ServerScoring.GradeMonotone | backend/app.py:371-382 | a higher score never gets a worse letter |
| ServerScoring.GetBmiCategory | backend/app.py:1128-1137 | the half-open bands (−∞, 18.5), [18.5, 25), [25, 30), [30, ∞) |
| ServerScoring.BmiCategoryMonotone | backend/app.py:1128-1137 | a higher BMI never falls in a lighter category |
| ServerScoring.CalculateBmiDistribution | backend/app.py:1023-1037 | all four categories present; all zero for no BMIs; otherwise each is its category's count as a rounded percentage of the whole |
| ServerScoring.CountsPartition | backend/app.py:1027-1032 | the four counts add up to the number of BMIs |
| ServerScoring.PercentageRange | backend/app.py:1035 | each percentage lies in [0, 100] |
| ServerScoring.PercentagesNearlySum | backend/app.py:1032-1035 | the four rounded percentages add up to between 98 and 102 |
| ServerScoring.RoundedSharesNearlySum | backend/app.py:1032-1035 | the same, for any four counts that add up to the total |
| ServerScoring.ExactSharesSum | backend/app.py:1032-1035 | the unrounded shares add up to exactly 100 |
| MealHistory.CalculateStreak | backend/app.py:479-500 | no history gives 0; otherwise the days from today back through the streak all have meals and the day before has none; 0 when today has no meal; never more than the number of distinct days |
| MealHistory.StreakUnique | backend/app.py:493-498 | only one length satisfies the streak condition, so the streak is the run of logged days ending today |
| MealHistory.RunFillsDays | backend/app.py:493-498 | when the run covers as many days as there are distinct days, the day before it has no meal, so stopping at that count never cuts a run short |
| MealHistory.FilterMeals | backend/app.py:566-575 | the filtered list is no longer than the history and holds exactly the history's meals that pass all given filters |
| MealHistory.FilterMealsSelects | backend/app.py:566-575 | the three filters in a row keep exactly the meals inside the inclusive window and of the asked type, in logged order; an empty type filters nothing |
| MealHistory.Listing | backend/app.py:563-578 | the listing is the selected meals sorted newest first; it is newest first and a permutation of the selection |
| MealHistory.SortIsNewestFirst | backend/app.py:578 | the sort output is newest first |
| MealHistory.SortIsStable | backend/app.py:578 | meals with equal timestamps keep their logged order |
| MealHistory.SortNewestFirst | backend/app.py:578 | the sort output is a permutation of its input |
| MealHistory.InsertKeepsOrder | backend/app.py:578 | inserting into a newest-first list keeps it newest first |
| MealHistory.PageContents | backend/app.py:581-582 | for a non-negative offset and limit, the page is the sorted meals from the offset on, at most limit of them |
| MealHistory.ConsecutivePages | backend/app.py:582 | two consecutive pages together form the double-size page |
| MealHistory.GetMeals | backend/app.py:549-592 | no history gives the empty response; otherwise limit and offset default to 50 and 0, the page is exactly the Python slice [offset:offset + limit] of the selected meals sorted newest first, total is the number of selected meals, the page holds only selected meals, newest first, never more than limit, and has_more holds exactly when offset + limit < total |
| MealHistory.PageAt | backend/app.py:578-591 | a query with both bounds given returns that slice of the listing and has_more exactly when meals lie past it |
| MealHistory.PageOfListing | backend/app.py:578-582 | a page is newest first, holds only selected meals and is no longer than the limit |
| MealHistory.HasMoreMeansNextPage | backend/app.py:581-591 | for a positive limit and a non-negative offset, has_more holds exactly when the next page is not empty |
| MealHistory.PySlice | backend/app.py:582 | the slice holds the resolved stop minus the resolved start elements (none when stop is not past start), its k-th element is the list's element at the resolved start plus k, for negative bounds too |
| MealHistory.SliceBound | backend/app.py:582 | Python's slice-bound rule: negative bounds count from the end, and bounds are clipped to the length |
| Bmi.NamesDistinct | backend/app.py:1025 | the four category labels are pairwise different, so keying the distribution by category is keying it by label |
| ServerScoring.LabelledDistribution | backend/app.py:1025-1037 | the distribution as the server returns it, keyed by label: exactly the four labels, each mapped to its category's value |
| BmiAgreement.ClientMatchesServer | frontend/script.js:877-881 | for every defined BMI the client's category equals the server's (backend/app.py:1128-1137) |
| BmiAgreement.BoundaryBmiReadsDifferently | backend/app.py:297-302 | a BMI of 30 is "Obese" for the category but adds only the overweight factor to the risk score |
| Text.Lower | frontend/script.js:524 | lower-casing keeps the length and maps each letter; it is idempotent (`Text.LowerIdempotent`) |
| Text.ContainsAt | frontend/script.js:830 | substring search succeeds exactly when the key occurs at some position |
| Text.Trim | frontend/script.js:515 | the result has no leading or trailing white space and is a slice of the input |
| Rounding.JsRound | frontend/script.js:850 | `Math.round(x)` is within half a unit of `x`, ties going up |
| Rounding.PyRound | backend/app.py:336 | Python's `round` is within half a unit, ties going to the even neighbour |
| Rounding.RoundTenth | frontend/script.js:851-853 | rounding to a tenth is within 0.05 and lands on a whole tenth |

## Left out

- Rendering, notifications (`Toast`), dialogs (`Modal`), focus handling and the text box
  itself are not modelled. The add operations take the typed text as a parameter and
  report which notification they end with; the quick-add's silent return on an empty
  name is reported as `Ignored`.
- `saveMeal` stores the meal in the browser's `localStorage` and clears the analysis
  panel; neither is modelled. `SaveMeal` takes whether an analysis exists and the
  prompt's answer as parameters, and models only its effect on the food list.
- The client's list rows also carry an `id` and a `timestamp` taken from the clock. No
  rule reads them, so they are not part of `FoodItem`.
- `clearAllFoodItems` only opens a confirmation dialog. Only the confirmed action,
  `confirmClearAll`, is modelled.
- The client's fiber, sugar and sodium values are random draws with no food-derived
  content, so they are not modelled. `totalQuantity` is computed but never used.
- The analysis request's network call is commented out in the client. The two-second
  delay, the button state and the `try`/`catch` fallback are not modelled either.
  `AnalyzeMeal` models only the two guards and the mock analysis.
- Floating point is not modelled. Reals are exact, so results that depend on binary
  rounding of decimals (0.1 + 0.2 and the like) may differ from the running program.
- A non-finite or `null` BMI is not modelled. A signup with height 0 stores an infinite
  BMI, which JSON saves as `null`, and the client then compares `null` as 0; `Option<real>`
  has only defined reals and `undefined`.
- Lower-casing covers ASCII letters only. JavaScript's and Python's full Unicode case
  mappings are not modelled.
- `ServerNutrition.Process`, and so `ServerNutrition.Accumulate`, keeps the lower-cased,
  stripped name in each entry where the server stores `food_name.title()`; title-casing is
  not modelled.
- Flask routing, authentication, JSON parsing and error handlers are not modelled. So
  are the 500 responses from exceptions: an unparsable `limit`, `offset` or date, a
  request item that is not an object, a JSON `null` name (the model reads a null name as
  missing, that is `""`), and a string quantity.
- `ServerNutrition.AnalyzeFoodItems` does not model a `food_items` value that is
  present but not a list. Lists are the only shape the model's request type has.
- `calculate_bmi`, `calculate_daily_targets`, `generate_recommendations` and the
  rest of the analysis response are not modelled, because they sit outside the scoring
  helpers. The same goes for the community statistics and backend/setup.py.
- `MealHistory.CalculateStreak` takes the calendar day of each meal and today's day as
  integers. Reading the clock and parsing ISO-8601 timestamps into dates are not
  modelled.
- `MealHistory.GetMeals` compares timestamps as integers. The server filters on parsed
  datetimes and sorts on the stored strings, and these agree only while every stored
  timestamp has the same format.
- `MealHistory.GetMeals` models the request's query parameters as already-parsed values.
  An absent `limit` or `offset` takes the server's defaults, 50 and 0.

=== FILE: bmi.dfy ===
/** The four body-mass-index categories both the web client and the server report. */
module Bmi {

  datatype BmiCategory = Underweight | Normal | Overweight | Obese

  /** Position of a category on the BMI scale, lightest first. */
  function Rank(c: BmiCategory): nat {
    match c
    case Underweight => 0
    case Normal => 1
    case Overweight => 2
    case Obese => 3
  }

  /** The label the system prints for a category. */
  function Name(c: BmiCategory): string {
    match c
    case Underweight => "Underweight"
    case Normal => "Normal"
    case Overweight => "Overweight"
    case Obese => "Obese"
  }

  const AllCategories: set<BmiCategory> := {Underweight, Normal, Overweight, Obese}

  /** Distinct categories print distinct labels, so keying results by category is keying them by label. */
  lemma NamesDistinct(a: BmiCategory, b: BmiCategory)
    ensures Name(a) == Name(b) <==> a == b
  {
  }
}

=== FILE: bmi_agreement.dfy ===
/**
 * The web client and the server each classify a BMI with their own chain of comparisons.
 * The chains are written differently but put every BMI in the same category, and the
 * server's risk score reads BMI bands with strict bounds where the category uses
 * inclusive ones.
 */
module BmiAgreement {
  import opened Results
  import opened Bmi
  import MealAnalysis
  import ServerScoring

  /** For every defined BMI the client's category is the server's category. */
  lemma ClientMatchesServer(b: real)
    ensures MealAnalysis.ClientBmiCategory(Some(b)) == ServerScoring.GetBmiCategory(b)
  {
  }

  /**
   * A BMI of exactly 30 is in the Obese category, yet the risk score counts it only in the
   * overweight band (its obesity factor needs a BMI above 30).
   */
  lemma BoundaryBmiReadsDifferently()
    ensures ServerScoring.GetBmiCategory(30.0) == Obese
    ensures var r := ServerScoring.CalculateRiskScore(0.0, 0.0, 0.0, 30.0);
            r.score == 1 && r.factors == [ServerScoring.OverweightBmi]
  {
    assert ServerScoring.BmiTier(30.0) == [ServerScoring.OverweightBmi];
  }
}

=== FILE: food_list.dfy ===
/**
 * The web client's list of foods making up the meal being composed, and the edits the
 * page offers on it: add from the text box, add by quick-add button, step a quantity up or
 * down by half a serving, remove one row, clear everything, save the meal (which empties
 * the list) and load the demo foods.
 */
module FoodList {
  import opened Results
  import opened Text

  /**
   * One row of the list. The client also stamps each row with an `id` and a `timestamp`
   * read from the clock; neither takes part in any rule, so they are not modelled.
   */
  datatype FoodItem = FoodItem(name: string, quantity: real, unit: string)

  /** Which of the three notifications an add attempt ends with, or `Ignored` when it returns without one. */
  datatype AddOutcome = Added | AlreadyListed | NothingEntered | Ignored

  const NewItemQuantity: real := 1.0
  const NewItemUnit: string := "serving"
  const QuantityStep: real := 0.5

  /** Names are compared after lower-casing both sides. */
  predicate SameName(a: string, b: string) {
    Lower(a) == Lower(b)
  }

  /** Some row of `items` carries `name`, up to case. */
  predicate Listed(items: seq<FoodItem>, name: string) {
    exists i :: 0 <= i < |items| && SameName(items[i].name, name)
  }

  /** `q` is a whole number of half servings. */
  predicate IsHalfStep(q: real) {
    (q * 2.0).Floor as real == q * 2.0
  }

  predicate ValidQuantity(q: real) {
    q >= QuantityStep && IsHalfStep(q)
  }

  predicate DistinctNames(items: seq<FoodItem>) {
    forall i, j :: 0 <= i < j < |items| ==> !SameName(items[i].name, items[j].name)
  }

  /** What every reachable list satisfies: no two rows share a name up to case, and every quantity is a positive multiple of one half. */
  predicate Valid(items: seq<FoodItem>) {
    && DistinctNames(items)
    && forall i :: 0 <= i < |items| ==> ValidQuantity(items[i].quantity)
  }

  /** The duplicate check and append shared by both add paths, for a name already known to be non-empty. */
  function Insert(items: seq<FoodItem>, name: string): (r: (seq<FoodItem>, AddOutcome))
    ensures r.1 != NothingEntered && r.1 != Ignored
    ensures Listed(r.0, name)
    ensures r.1 == Added <==> !Listed(items, name)
    ensures r.1 == AlreadyListed ==> r.0 == items
    ensures r.1 == Added ==> r.0 == items + [FoodItem(name, NewItemQuantity, NewItemUnit)]
  {
    if Listed(items, name) then
      (items, AlreadyListed)
    else
      var r := items + [FoodItem(name, NewItemQuantity, NewItemUnit)];
      assert SameName(r[|items|].name, name);
      (r, Added)
  }

  /**
   * Adding from the text box: the typed text is trimmed; blank text is refused, a name
   * already listed up to case is refused, anything else is appended as one serving.
   */
  function AddFoodItem(items: seq<FoodItem>, input: string): (r: (seq<FoodItem>, AddOutcome))
    ensures r.1 != Ignored
    ensures r.1 == NothingEntered <==> JsTrim(input) == []
    ensures r.1 == Added <==> JsTrim(input) != [] && !Listed(items, JsTrim(input))
    ensures r.1 != Added ==> r.0 == items
    ensures r.1 == Added ==> r.0 == items + [FoodItem(JsTrim(input), NewItemQuantity, NewItemUnit)]
    ensures JsTrim(input) != [] ==> Listed(r.0, JsTrim(input))
  {
    var name := JsTrim(input);
    if name == [] then (items, NothingEntered) else Insert(items, name)
  }

  /**
   * Adding from a quick-add button: the name is used as given (no trimming); only the
   * empty name is ignored, silently, then the same duplicate check applies.
   */
  function AddFoodItemByName(items: seq<FoodItem>, name: string): (r: (seq<FoodItem>, AddOutcome))
    ensures r.1 != NothingEntered
    ensures r.1 == Ignored <==> name == []
    ensures r.1 == Added <==> name != [] && !Listed(items, name)
    ensures r.1 != Added ==> r.0 == items
    ensures r.1 == Added ==> r.0 == items + [FoodItem(name, NewItemQuantity, NewItemUnit)]
    ensures name != [] ==> Listed(r.0, name)
  {
    if name == [] then (items, Ignored) else Insert(items, name)
  }

  predicate InRange(items: seq<FoodItem>, index: int) {
    0 <= index < |items|
  }

  /** The plus button: half a serving more on row `index`; an index outside the list does nothing. */
  function IncreaseQuantity(items: seq<FoodItem>, index: int): (r: seq<FoodItem>)
    ensures |r| == |items|
    ensures forall k :: 0 <= k < |items| && k != index ==> r[k] == items[k]
    ensures InRange(items, index) ==>
              r[index].name == items[index].name && r[index].unit == items[index].unit
              && r[index].quantity == items[index].quantity + 0.5
    ensures !InRange(items, index) ==> r == items
  {
    if InRange(items, index) then
      items[index := items[index].(quantity := items[index].quantity + QuantityStep)]
    else
      items
  }

  /** The remove button: row `index` is dropped and the rest keep their order; an index outside the list does nothing. */
  function RemoveFoodItem(items: seq<FoodItem>, index: int): (r: seq<FoodItem>)
    ensures InRange(items, index) ==>
              && |r| == |items| - 1
              && (forall k :: 0 <= k < index ==> r[k] == items[k])
              && (forall k :: index <= k < |r| ==> r[k] == items[k + 1])
    ensures !InRange(items, index) ==> r == items
  {
    if InRange(items, index) then items[..index] + items[index + 1..] else items
  }

  /**
   * The minus button: half a serving less on row `index` while more than half a serving
   * remains; at half a serving or less the row is removed instead.
   */
  function DecreaseQuantity(items: seq<FoodItem>, index: int): (r: seq<FoodItem>)
    ensures !InRange(items, index) ==> r == items
    ensures InRange(items, index) && items[index].quantity > 0.5 ==>
              && |r| == |items|
              && (forall k :: 0 <= k < |items| && k != index ==> r[k] == items[k])
              && r[index].name == items[index].name && r[index].unit == items[index].unit
              && r[index].quantity == items[index].quantity - 0.5
    ensures InRange(items, index) && items[index].quantity <= 0.5 ==>
              |r| == |items| - 1 && r == RemoveFoodItem(items, index)
  {
    if InRange(items, index) then
      if items[index].quantity > QuantityStep then
        items[index := items[index].(quantity := items[index].quantity - QuantityStep)]
      else
        RemoveFoodItem(items, index)
    else
      items
  }

  /** Confirming "Clear All": the list becomes empty; the second component is the count the notification reports. */
  function ConfirmClearAll(items: seq<FoodItem>): (r: (seq<FoodItem>, nat))
    ensures r.0 == [] && r.1 == |items|
  {
    ([], |items|)
  }

  /** How a save attempt ends. Only a saved meal empties the list. */
  datatype SaveOutcome = NothingToSave | NotAnalyzed | SaveCancelled | Saved

  /**
   * Saving the meal: refused on an empty list, then refused before any analysis, then
   * abandoned when the name prompt is cancelled (`None`) or answered with an empty name;
   * otherwise the meal is stored and the list cleared.
   */
  function SaveMeal(items: seq<FoodItem>, analyzed: bool, mealName: Option<string>): (r: (seq<FoodItem>, SaveOutcome))
    ensures items == [] ==> r.1 == NothingToSave
    ensures items != [] && !analyzed ==> r.1 == NotAnalyzed
    ensures items != [] && analyzed && (mealName.None? || mealName.value == []) ==> r.1 == SaveCancelled
    ensures r.1 == Saved <==> items != [] && analyzed && mealName.Some? && mealName.value != []
    ensures r.1 == Saved ==> r.0 == []
    ensures r.1 != Saved ==> r.0 == items
  {
    if items == [] then (items, NothingToSave)
    else if !analyzed then (items, NotAnalyzed)
    else if mealName.None? || mealName.value == [] then (items, SaveCancelled)
    else ([], Saved)
  }

  /** The sample foods the demo loads, in order. */
  const DemoFoods: seq<string> := ["Apple", "Chicken Breast", "Brown Rice", "Broccoli", "Almonds"]

  /** Loading the demo: on an empty list, one serving of each sample food; any other list is kept. */
  function LoadDemoData(items: seq<FoodItem>): (r: seq<FoodItem>)
    ensures items != [] ==> r == items
    ensures items == [] ==> |r| == |DemoFoods|
                            && forall i :: 0 <= i < |r| ==> r[i] == FoodItem(DemoFoods[i], NewItemQuantity, NewItemUnit)
  {
    if items == [] then seq(|DemoFoods|, i requires 0 <= i < |DemoFoods| => FoodItem(DemoFoods[i], NewItemQuantity, NewItemUnit))
    else items
  }

  /** The demo list is valid: the sample names differ in length, so they differ up to case. */
  lemma DemoListValid()
    ensures Valid(LoadDemoData([]))
  {
    var r := LoadDemoData([]);
    assert ValidQuantity(NewItemQuantity) by {
      assert (NewItemQuantity * 2.0).Floor == 2;
    }
    forall i, j | 0 <= i < j < |r|
      ensures !SameName(r[i].name, r[j].name)
    {
      assert |Lower(r[i].name)| == |DemoFoods[i]| && |Lower(r[j].name)| == |DemoFoods[j]|;
    }
  }

  /** One user action on the list. */
  datatype Edit =
    | Add(input: string)
    | AddByName(name: string)
    | Increase(index: int)
    | Decrease(index: int)
    | Remove(index: int)
    | ClearAll
    | Save(analyzed: bool, mealName: Option<string>)
    | LoadDemo

  function Apply(items: seq<FoodItem>, e: Edit): seq<FoodItem> {
    match e
    case Add(input) => AddFoodItem(items, input).0
    case AddByName(name) => AddFoodItemByName(items, name).0
    case Increase(i) => IncreaseQuantity(items, i)
    case Decrease(i) => DecreaseQuantity(items, i)
    case Remove(i) => RemoveFoodItem(items, i)
    case ClearAll => ConfirmClearAll(items).0
    case Save(analyzed, mealName) => SaveMeal(items, analyzed, mealName).0
    case LoadDemo => LoadDemoData(items)
  }

  /** The list after performing `edits` in order. */
  function ApplyAll(items: seq<FoodItem>, edits: seq<Edit>): seq<FoodItem>
    decreases |edits|
  {
    if edits == [] then items else ApplyAll(Apply(items, edits[0]), edits[1..])
  }

  lemma InsertPreservesValid(items: seq<FoodItem>, name: string)
    requires Valid(items)
    ensures Valid(Insert(items, name).0)
  {
    var r := Insert(items, name);
    if r.1 == Added {
      forall i, j | 0 <= i < j < |r.0|
        ensures !SameName(r.0[i].name, r.0[j].name)
      {
        if j == |items| {
          assert r.0[i] == items[i];
        }
      }
    }
  }

  /** Half a serving more stays on the grid. */
  lemma HalfStepUp(q: real)
    requires ValidQuantity(q)
    ensures ValidQuantity(q + 0.5)
  {
    var n := (q * 2.0).Floor;
    assert (q + 0.5) * 2.0 == (n + 1) as real;
    assert ((n + 1) as real).Floor == n + 1;
  }

  /** Above the floor, half a serving less stays on the grid and at or above the floor. */
  lemma HalfStepDown(q: real)
    requires ValidQuantity(q) && q > 0.5
    ensures ValidQuantity(q - 0.5)
  {
    var n := (q * 2.0).Floor;
    assert n >= 2;
    assert (q - 0.5) * 2.0 == (n - 1) as real;
    assert ((n - 1) as real).Floor == n - 1;
  }

  lemma IncreasePreservesValid(items: seq<FoodItem>, index: int)
    requires Valid(items)
    ensures Valid(IncreaseQuantity(items, index))
  {
    var r := IncreaseQuantity(items, index);
    if InRange(items, index) {
      HalfStepUp(items[index].quantity);
      assert ValidQuantity(r[index].quantity);
      forall i, j | 0 <= i < j < |r|
        ensures !SameName(r[i].name, r[j].name)
      {
        assert r[i].name == items[i].name && r[j].name == items[j].name;
      }
      forall i | 0 <= i < |r|
        ensures ValidQuantity(r[i].quantity)
      {
        if i != index {
          assert r[i] == items[i];
        }
      }
    }
  }

  lemma RemovePreservesValid(items: seq<FoodItem>, index: int)
    requires Valid(items)
    ensures Valid(RemoveFoodItem(items, index))
  {
    var r := RemoveFoodItem(items, index);
    if InRange(items, index) {
      forall i, j | 0 <= i < j < |r|
        ensures !SameName(r[i].name, r[j].name)
      {
        var i' := if i < index then i else i + 1;
        var j' := if j < index then j else j + 1;
        assert r[i] == items[i'] && r[j] == items[j'];
      }
      forall i | 0 <= i < |r|
        ensures ValidQuantity(r[i].quantity)
      {
        assert r[i] == items[if i < index then i else i + 1];
      }
    }
  }

  lemma DecreasePreservesValid(items: seq<FoodItem>, index: int)
    requires Valid(items)
    ensures Valid(DecreaseQuantity(items, index))
  {
    if InRange(items, index) {
      var q := items[index].quantity;
      if q > 0.5 {
        HalfStepDown(q);
        var r := DecreaseQuantity(items, index);
        forall i, j | 0 <= i < j < |r|
          ensures !SameName(r[i].name, r[j].name)
        {
          assert r[i].name == items[i].name && r[j].name == items[j].name;
        }
        forall i | 0 <= i < |r|
          ensures ValidQuantity(r[i].quantity)
        {
          if i != index {
            assert r[i] == items[i];
          }
        }
      } else {
        RemovePreservesValid(items, index);
      }
    }
  }

  /** Every single edit keeps the list valid. */
  lemma ApplyPreservesValid(items: seq<FoodItem>, e: Edit)
    requires Valid(items)
    ensures Valid(Apply(items, e))
  {
    match e
    case Add(input) =>
      if JsTrim(input) != [] {
        InsertPreservesValid(items, JsTrim(input));
      }
    case AddByName(name) =>
      if name != [] {
        InsertPreservesValid(items, name);
      }
    case Increase(i) => IncreasePreservesValid(items, i);
    case Decrease(i) => DecreasePreservesValid(items, i);
    case Remove(i) => RemovePreservesValid(items, i);
    case ClearAll =>
    case Save(_, _) =>
    case LoadDemo =>
      if items == [] {
        DemoListValid();
      }
  }

  /** Starting from the empty list, no sequence of edits ever produces a case-insensitive duplicate or a quantity off the half-serving grid. */
  lemma {:induction false} ReachableListsAreValid(edits: seq<Edit>)
    ensures Valid(ApplyAll([], edits))
  {
    ApplyAllPreservesValid([], edits);
  }

  lemma {:induction false} ApplyAllPreservesValid(items: seq<FoodItem>, edits: seq<Edit>)
    requires Valid(items)
    ensures Valid(ApplyAll(items, edits))
    decreases |edits|
  {
    if edits != [] {
      ApplyPreservesValid(items, edits[0]);
      ApplyAllPreservesValid(Apply(items, edits[0]), edits[1..]);
    }
  }

  /** Adding the same text twice has the effect of adding it once. */
  lemma AddIdempotent(items: seq<FoodItem>, input: string)
    ensures AddFoodItem(AddFoodItem(items, input).0, input).0 == AddFoodItem(items, input).0
  {
  }

  /** On a valid list, stepping a row up and then down restores the list exactly. */
  lemma IncreaseThenDecrease(items: seq<FoodItem>, index: int)
    requires Valid(items)
    ensures DecreaseQuantity(IncreaseQuantity(items, index), index) == items
  {
  }

  /** On a valid list, the minus button on a half-serving row takes the row out. */
  lemma DecreaseAtFloorRemoves(items: seq<FoodItem>, index: int)
    requires Valid(items) && InRange(items, index) && items[index].quantity == 0.5
    ensures |DecreaseQuantity(items, index)| == |items| - 1
    ensures !Listed(DecreaseQuantity(items, index), items[index].name)
  {
    RemoveForgetsName(items, index);
  }

  /** On a valid list, removing a row removes its name: no remaining row matches it. */
  lemma RemoveForgetsName(items: seq<FoodItem>, index: int)
    requires Valid(items) && InRange(items, index)
    ensures !Listed(RemoveFoodItem(items, index), items[index].name)
  {
    var r := RemoveFoodItem(items, index);
    forall k | 0 <= k < |r|
      ensures !SameName(r[k].name, items[index].name)
    {
      if k < index {
        assert r[k] == items[k];
      } else {
        assert r[k] == items[k + 1];
      }
    }
  }
}

=== FILE: meal_analysis.dfy ===
/**
 * The web client's meal analysis: the food list is turned into nutrient totals through a
 * small ordered food table, the totals are scaled by a random factor each and floored, and
 * a meal score, a risk level, a BMI category and a fixed-shape list of recommendations are
 * derived from the result.
 *
 * The four `Math.random()` draws are parameters (`Draws`), so the analysis is a function.
 */
module MealAnalysis {
  import opened Results
  import opened Text
  import opened Rounding
  import opened Bmi
  import opened FoodList

  /** Calories, protein, carbohydrates and fats, per serving or in total. */
  datatype Macros = Macros(calories: real, protein: real, carbs: real, fats: real) {

    function Plus(o: Macros): Macros {
      Macros(calories + o.calories, protein + o.protein, carbs + o.carbs, fats + o.fats)
    }

    function Times(q: real): Macros {
      Macros(calories * q, protein * q, carbs * q, fats * q)
    }

    predicate NonNegative() {
      calories >= 0.0 && protein >= 0.0 && carbs >= 0.0 && fats >= 0.0
    }
  }

  const Zero := Macros(0.0, 0.0, 0.0, 0.0)

  /** The client's food table: lower-case name fragments with per-serving values, in declaration order. */
  const FoodTable: seq<(string, Macros)> := [
    ("apple", Macros(95.0, 0.5, 25.0, 0.3)),
    ("banana", Macros(105.0, 1.3, 27.0, 0.4)),
    ("chicken breast", Macros(165.0, 31.0, 0.0, 3.6)),
    ("brown rice", Macros(215.0, 5.0, 45.0, 1.8)),
    ("broccoli", Macros(55.0, 3.7, 11.0, 0.6)),
    ("salmon", Macros(206.0, 22.0, 0.0, 13.0)),
    ("eggs", Macros(155.0, 13.0, 1.1, 11.0)),
    ("bread", Macros(265.0, 9.0, 49.0, 3.2)),
    ("milk", Macros(103.0, 8.0, 12.0, 2.4)),
    ("yogurt", Macros(150.0, 13.0, 17.0, 4.0)),
    ("almonds", Macros(164.0, 6.0, 6.0, 14.0)),
    ("cheese", Macros(402.0, 25.0, 1.3, 33.0))
  ]

  /** Per-serving values assumed for a food no table key matches. */
  const UnknownFood := Macros(150.0, 10.0, 20.0, 5.0)

  lemma FoodTableNonNegative()
    ensures forall k :: 0 <= k < |FoodTable| ==> FoodTable[k].1.NonNegative()
  {
  }

  /** The first table key at or after `from` that occurs in `lowered`. */
  function FindKeyFrom(lowered: string, from: nat): (r: Option<nat>)
    requires from <= |FoodTable|
    ensures r.Some? ==> && from <= r.value < |FoodTable|
                        && Contains(lowered, FoodTable[r.value].0)
                        && forall j :: from <= j < r.value ==> !Contains(lowered, FoodTable[j].0)
    ensures r.None? ==> forall j :: from <= j < |FoodTable| ==> !Contains(lowered, FoodTable[j].0)
    decreases |FoodTable| - from
  {
    if from == |FoodTable| then None
    else if Contains(lowered, FoodTable[from].0) then Some(from)
    else FindKeyFrom(lowered, from + 1)
  }

  /** Index of the first table key, in declaration order, that occurs in the lower-cased name. */
  function MatchKey(name: string): (r: Option<nat>)
    ensures r.Some? ==> && r.value < |FoodTable|
                        && Contains(Lower(name), FoodTable[r.value].0)
                        && forall j :: 0 <= j < r.value ==> !Contains(Lower(name), FoodTable[j].0)
    ensures r.None? ==> forall j :: 0 <= j < |FoodTable| ==> !Contains(Lower(name), FoodTable[j].0)
  {
    FindKeyFrom(Lower(name), 0)
  }

  /** Per-serving values used for a food: its first matching table row, else the unknown-food values. */
  function PerServing(name: string): (m: Macros)
    ensures m.NonNegative()
    ensures m == UnknownFood || exists k :: 0 <= k < |FoodTable| && m == FoodTable[k].1
    ensures forall k :: 0 <= k < |FoodTable| && Contains(Lower(name), FoodTable[k].0)
                        && (forall j :: 0 <= j < k ==> !Contains(Lower(name), FoodTable[j].0))
                        ==> m == FoodTable[k].1
    ensures (forall j :: 0 <= j < |FoodTable| ==> !Contains(Lower(name), FoodTable[j].0)) ==> m == UnknownFood
  {
    FoodTableNonNegative();
    match MatchKey(name)
    case Some(k) => FoodTable[k].1
    case None => UnknownFood
  }

  function Contribution(item: FoodItem): Macros {
    PerServing(item.name).Times(item.quantity)
  }

  /** The base totals: each item's per-serving values times its quantity, summed in list order. */
  function Aggregate(items: seq<FoodItem>): (r: Macros)
    ensures (forall i :: 0 <= i < |items| ==> items[i].quantity >= 0.0) ==> r.NonNegative()
    decreases |items|
  {
    if items == [] then Zero
    else
      var last := items[|items| - 1];
      ContributionNonNegative(last);
      Aggregate(items[..|items| - 1]).Plus(Contribution(last))
  }

  lemma ContributionNonNegative(item: FoodItem)
    ensures item.quantity >= 0.0 ==> Contribution(item).NonNegative()
  {
    if item.quantity >= 0.0 {
      ScaleNonNegative(PerServing(item.name), item.quantity);
    }
  }

  lemma ScaleNonNegative(v: Macros, q: real)
    requires v.NonNegative() && q >= 0.0
    ensures v.Times(q).NonNegative()
  {
    ProductNonNegative(v.calories, q);
    ProductNonNegative(v.protein, q);
    ProductNonNegative(v.carbs, q);
    ProductNonNegative(v.fats, q);
  }

  lemma ProductNonNegative(a: real, b: real)
    requires a >= 0.0 && b >= 0.0
    ensures a * b >= 0.0
  {
  }


  /** One item contributes exactly its per-serving values times its quantity. */
  lemma AggregateSingle(item: FoodItem)
    ensures Aggregate([]) == Zero
    ensures Aggregate([item]) == PerServing(item.name).Times(item.quantity)
  {
    assert [item][..0] == [];
  }

  /** Totals are additive over concatenation, so the order and grouping of the list do not matter. */
  lemma {:induction false} AggregateAppend(a: seq<FoodItem>, b: seq<FoodItem>)
    ensures Aggregate(a + b) == Aggregate(a).Plus(Aggregate(b))
    decreases |b|
  {
    if b == [] {
      assert a + b == a;
    } else {
      var b' := b[..|b| - 1];
      var last := b[|b| - 1];
      var ab := a + b;
      assert ab[..|ab| - 1] == a + b';
      assert ab[|ab| - 1] == last;
      assert Aggregate(ab) == Aggregate(a + b').Plus(Contribution(last));
      assert Aggregate(b) == Aggregate(b').Plus(Contribution(last));
      AggregateAppend(a, b');
      PlusAssociative(Aggregate(a), Aggregate(b'), Contribution(last));
    }
  }

  lemma PlusAssociative(x: Macros, y: Macros, z: Macros)
    ensures x.Plus(y).Plus(z) == x.Plus(y.Plus(z))
  {
  }

  /** The four `Math.random()` draws that scale calories, protein, carbohydrates and fats. */
  datatype Draws = Draws(calories: real, protein: real, carbs: real, fats: real)

  predicate IsUnitDraw(r: real) {
    0.0 <= r < 1.0
  }

  /** What `Math.random()` can return, for all four draws. */
  predicate ValidDraws(d: Draws) {
    IsUnitDraw(d.calories) && IsUnitDraw(d.protein) && IsUnitDraw(d.carbs) && IsUnitDraw(d.fats)
  }

  /** The scale applied to one base total. */
  function VarianceFactor(r: real): (f: real)
    ensures IsUnitDraw(r) ==> 0.8 <= f < 1.2
  {
    0.8 + r * 0.4
  }

  /** Reported totals: whole calories, the other three to one decimal place. */
  datatype Nutrition = Nutrition(calories: int, protein: real, carbs: real, fats: real)

  const MinCalories: int := 200
  const MinProtein: real := 5.0
  const MinCarbs: real := 10.0
  const MinFats: real := 2.0

  predicate IsTenths(x: real) {
    (x * 10.0).Floor as real == x * 10.0
  }

  function MaxInt(a: int, b: int): int {
    if a >= b then a else b
  }

  /** A base total scaled by its factor, rounded to a whole number, and raised to `floor`. */
  function VariedWhole(x: real, r: real, floor: int): (v: int)
    ensures v >= floor
  {
    MaxInt(floor, JsRound(x * VarianceFactor(r)))
  }

  /** A base total scaled by its factor, rounded to one decimal place, and raised to `floor`. */
  function VariedTenths(x: real, r: real, floor: real): (v: real)
    requires IsTenths(floor)
    ensures v >= floor && IsTenths(v)
  {
    Max(floor, RoundTenth(x * VarianceFactor(r)))
  }

  /** Each base total scaled by its factor, rounded, and raised to its minimum. */
  function ApplyVariance(base: Macros, d: Draws): (n: Nutrition)
    ensures n.calories >= 200 && n.protein >= 5.0 && n.carbs >= 10.0 && n.fats >= 2.0
    ensures IsTenths(n.protein) && IsTenths(n.carbs) && IsTenths(n.fats)
  {
    assert IsTenths(MinProtein) && IsTenths(MinCarbs) && IsTenths(MinFats);
    Nutrition(
      VariedWhole(base.calories, d.calories, MinCalories),
      VariedTenths(base.protein, d.protein, MinProtein),
      VariedTenths(base.carbs, d.carbs, MinCarbs),
      VariedTenths(base.fats, d.fats, MinFats))
  }

  /** A non-negative `x` scaled by a factor in [0.8, 1.2] lies between 0.8x and 1.2x. */
  lemma ScaledBetween(x: real, r: real)
    requires x >= 0.0 && IsUnitDraw(r)
    ensures 0.8 * x <= x * VarianceFactor(r) <= 1.2 * x
  {
    var f := VarianceFactor(r);
    assert x * f - 0.8 * x == x * (f - 0.8);
    assert 1.2 * x - x * f == x * (1.2 - f);
  }

  /** A varied whole-number total lies between what factors of 0.8 and 1.2 would give. */
  lemma VariedWholeBounds(x: real, r: real, floor: int)
    requires x >= 0.0 && IsUnitDraw(r)
    ensures MaxInt(floor, JsRound(0.8 * x)) <= VariedWhole(x, r, floor) <= MaxInt(floor, JsRound(1.2 * x))
  {
    var y := x * VarianceFactor(r);
    ScaledBetween(x, r);
    OrderedRounding(0.8 * x, y, 1.2 * x);
  }

  /** A varied one-decimal total lies between what factors of 0.8 and 1.2 would give. */
  lemma VariedTenthsBounds(x: real, r: real, floor: real)
    requires x >= 0.0 && IsUnitDraw(r) && IsTenths(floor)
    ensures Max(floor, RoundTenth(0.8 * x)) <= VariedTenths(x, r, floor) <= Max(floor, RoundTenth(1.2 * x))
  {
    var y := x * VarianceFactor(r);
    ScaledBetween(x, r);
    OrderedRounding(0.8 * x, y, 1.2 * x);
  }

  lemma OrderedRounding(lo: real, y: real, hi: real)
    requires lo <= y <= hi
    ensures JsRound(lo) <= JsRound(y) <= JsRound(hi)
    ensures RoundTenth(lo) <= RoundTenth(y) <= RoundTenth(hi)
  {
    JsRoundMonotone(lo, y);
    JsRoundMonotone(y, hi);
    RoundTenthMonotone(lo, y);
    RoundTenthMonotone(y, hi);
  }

  /**
   * The random variance is bounded: every reported total lies between what a factor of 0.8
   * and a factor of 1.2 would give.
   */
  lemma VarianceBounds(base: Macros, d: Draws)
    requires base.NonNegative() && ValidDraws(d)
    ensures var n := ApplyVariance(base, d);
            && MaxInt(MinCalories, JsRound(0.8 * base.calories)) <= n.calories
            && n.calories <= MaxInt(MinCalories, JsRound(1.2 * base.calories))
            && Max(MinProtein, RoundTenth(0.8 * base.protein)) <= n.protein
            && n.protein <= Max(MinProtein, RoundTenth(1.2 * base.protein))
            && Max(MinCarbs, RoundTenth(0.8 * base.carbs)) <= n.carbs
            && n.carbs <= Max(MinCarbs, RoundTenth(1.2 * base.carbs))
            && Max(MinFats, RoundTenth(0.8 * base.fats)) <= n.fats
            && n.fats <= Max(MinFats, RoundTenth(1.2 * base.fats))
  {
    assert IsTenths(MinProtein) && IsTenths(MinCarbs) && IsTenths(MinFats);
    VariedWholeBounds(base.calories, d.calories, MinCalories);
    VariedTenthsBounds(base.protein, d.protein, MinProtein);
    VariedTenthsBounds(base.carbs, d.carbs, MinCarbs);
    VariedTenthsBounds(base.fats, d.fats, MinFats);
  }

  /** `x` limited to the range [60, 100]. */
  function Clamp(x: real): (r: real)
    ensures 60.0 <= r <= 100.0
    ensures 60.0 <= x <= 100.0 ==> r == x
    ensures x < 60.0 ==> r == 60.0
    ensures x > 100.0 ==> r == 100.0
  {
    Min(100.0, Max(60.0, x))
  }

  /** 100 at exactly 500 kcal, one point less per 10 kcal away from it. */
  function CalorieScore(calories: int): (s: real)
    ensures 60.0 <= s <= 100.0
  {
    Clamp(100.0 - Abs(calories as real - 500.0) / 10.0)
  }

  /** Two points per gram of protein. */
  function ProteinScore(protein: real): (s: real)
    ensures 60.0 <= s <= 100.0
  {
    Clamp(protein * 2.0)
  }

  /** 100 less the distance of protein from half the carbohydrates and of fats from 15 g. */
  function BalanceScore(protein: real, carbs: real, fats: real): (s: real)
    ensures 60.0 <= s <= 100.0
  {
    Clamp(100.0 - Abs(protein - carbs / 2.0) - Abs(fats - 15.0))
  }

  /** The rounded mean of the three sub-scores. */
  function MealScore(n: Nutrition): (s: int)
    ensures 60 <= s <= 100
  {
    var total := CalorieScore(n.calories) + ProteinScore(n.protein) + BalanceScore(n.protein, n.carbs, n.fats);
    JsRoundOfInteger(60);
    JsRoundOfInteger(100);
    JsRoundMonotone(60.0, total / 3.0);
    JsRoundMonotone(total / 3.0, 100.0);
    JsRound(total / 3.0)
  }

  /** The calorie sub-score is perfect exactly at 500 kcal and bottoms out 400 kcal or more away. */
  lemma CalorieScoreExtremes(calories: int)
    ensures CalorieScore(calories) == 100.0 <==> calories == 500
    ensures CalorieScore(calories) == 60.0 <==> (calories <= 100 || calories >= 900)
  {
  }

  /** The protein sub-score is perfect from 50 g up and bottoms out at 30 g or less. */
  lemma ProteinScoreExtremes(protein: real)
    ensures ProteinScore(protein) == 100.0 <==> protein >= 50.0
    ensures ProteinScore(protein) == 60.0 <==> protein <= 30.0
  {
  }

  /** The balance sub-score is perfect exactly when protein is half the carbohydrates and fats are 15 g. */
  lemma BalanceScorePerfect(protein: real, carbs: real, fats: real)
    ensures BalanceScore(protein, carbs, fats) == 100.0 <==> protein == carbs / 2.0 && fats == 15.0
  {
  }

  datatype RiskLevel = LowRisk | MediumRisk | HighRisk

  /** The `health_risk` part of the result: a level, its numeric score, and an explanation. */
  datatype HealthRisk = HealthRisk(level: RiskLevel, score: int, details: string)

  const LowRiskDetails := "This meal is well-balanced and nutritious."
  const CalorieRiskDetails := "This meal is very high in calories. Consider reducing portion sizes."
  const FatRiskDetails := "High fat content. Consider choosing leaner options."
  const CarbRiskDetails := "High carb, low protein meal. Consider adding more protein."

  /** The risk level's number: 0 for low, 1 for medium, 2 for high. */
  function RiskScore(level: RiskLevel): (s: int)
    ensures 0 <= s <= 2
    ensures s == 0 <==> level == LowRisk
    ensures s == 1 <==> level == MediumRisk
    ensures s == 2 <==> level == HighRisk
  {
    match level
    case LowRisk => 0
    case MediumRisk => 1
    case HighRisk => 2
  }

  /** The risk rules in order, the first that fires deciding: calories, then fats, then carbohydrates with low protein. */
  function AssessRisk(n: Nutrition): (h: HealthRisk)
    ensures h.score == RiskScore(h.level)
    ensures h.level == HighRisk <==> n.calories > 800
    ensures h.level == MediumRisk <==> n.calories <= 800 && (n.fats > 30.0 || (n.carbs > 100.0 && n.protein < 20.0))
    ensures h.level == LowRisk <==> n.calories <= 800 && n.fats <= 30.0 && (n.carbs <= 100.0 || n.protein >= 20.0)
    ensures h.details == CalorieRiskDetails <==> h.level == HighRisk
    ensures h.details == FatRiskDetails <==> h.level == MediumRisk && n.fats > 30.0
    ensures h.details == CarbRiskDetails <==> h.level == MediumRisk && n.fats <= 30.0
    ensures h.details == LowRiskDetails <==> h.level == LowRisk
  {
    var (level, details) :=
      if n.calories > 800 then (HighRisk, CalorieRiskDetails)
      else if n.fats > 30.0 then (MediumRisk, FatRiskDetails)
      else if n.carbs > 100.0 && n.protein < 20.0 then (MediumRisk, CarbRiskDetails)
      else (LowRisk, LowRiskDetails);
    HealthRisk(level, RiskScore(level), details)
  }

  /** More calories, fats or carbohydrates, or less protein, never lower the risk score. */
  lemma RiskScoreMonotone(a: Nutrition, b: Nutrition)
    requires a.calories <= b.calories && a.fats <= b.fats && a.carbs <= b.carbs && a.protein >= b.protein
    ensures AssessRisk(a).score <= AssessRisk(b).score
  {
  }

  /** The client's BMI rule; an undefined BMI (`None`) fails every comparison and lands on Normal. */
  function ClientBmiCategory(bmi: Option<real>): (c: BmiCategory)
    ensures bmi.None? ==> c == Normal
    ensures bmi.Some? ==> (c == Underweight <==> bmi.value < 18.5)
    ensures bmi.Some? ==> (c == Normal <==> 18.5 <= bmi.value < 25.0)
    ensures bmi.Some? ==> (c == Overweight <==> 25.0 <= bmi.value < 30.0)
    ensures bmi.Some? ==> (c == Obese <==> bmi.value >= 30.0)
  {
    match bmi
    case None => Normal
    case Some(b) =>
      if b < 18.5 then Underweight
      else if b >= 25.0 && b < 30.0 then Overweight
      else if b >= 30.0 then Obese
      else Normal
  }

  const VarietyNote := "Good variety of foods in this meal"
  const ReducePortions := "Consider reducing portion sizes for calorie control"
  const AppropriateCalories := "Appropriate calorie intake"
  const AddProtein := "Add more protein-rich foods like chicken, fish, or legumes"
  const AdequateProtein := "Adequate protein for muscle maintenance"
  const ComplexCarbs := "Consider choosing complex carbs over simple sugars"
  const GoodCarbs := "Good carbohydrate sources"
  const DrinkWater := "Drink water with your meal for better digestion"

  /** Five recommendations: a fixed opening, one line each for calories, protein and carbohydrates, a fixed closing. */
  function Recommendations(n: Nutrition): (r: seq<string>)
    ensures |r| == 5
    ensures r[0] == VarietyNote && r[4] == DrinkWater
    ensures r[1] in {ReducePortions, AppropriateCalories} && (r[1] == ReducePortions <==> n.calories > 600)
    ensures r[2] in {AddProtein, AdequateProtein} && (r[2] == AddProtein <==> n.protein < 20.0)
    ensures r[3] in {ComplexCarbs, GoodCarbs} && (r[3] == ComplexCarbs <==> n.carbs > 100.0)
  {
    [
      VarietyNote,
      if n.calories > 600 then ReducePortions else AppropriateCalories,
      if n.protein < 20.0 then AddProtein else AdequateProtein,
      if n.carbs > 100.0 then ComplexCarbs else GoodCarbs,
      DrinkWater
    ]
  }

  /** Two results on the same side of the three thresholds get the same recommendations. */
  lemma RecommendationsDependOnThresholdsOnly(a: Nutrition, b: Nutrition)
    requires (a.calories > 600 <==> b.calories > 600)
    requires (a.protein < 20.0 <==> b.protein < 20.0)
    requires (a.carbs > 100.0 <==> b.carbs > 100.0)
    ensures Recommendations(a) == Recommendations(b)
  {
  }

  const FoodSuggestions: seq<string> := [
    "Add a side salad for more fiber",
    "Include a fruit for dessert",
    "Consider grilled instead of fried options",
    "Use herbs and spices instead of salt"
  ]

  /** Daily reference intakes; fixed, whatever the user's biometrics. */
  datatype DailyTargets = DailyTargets(calories: int, protein: int, carbs: int, fats: int, fiber: int)

  const FixedTargets := DailyTargets(2200, 90, 275, 73, 30)

  /** `parts` joined with `sep` between consecutive parts. */
  function Join(parts: seq<string>, sep: string): (r: string)
    ensures parts == [] ==> r == []
    ensures |parts| == 1 ==> r == parts[0]
    decreases |parts|
  {
    if parts == [] then []
    else if |parts| == 1 then parts[0]
    else parts[0] + sep + Join(parts[1..], sep)
  }

  /** Joining two non-empty runs of parts is joining each and putting one separator between them. */
  lemma {:induction false} JoinAppend(a: seq<string>, b: seq<string>, sep: string)
    requires a != [] && b != []
    ensures Join(a + b, sep) == Join(a, sep) + sep + Join(b, sep)
    decreases |a|
  {
    if |a| == 1 {
      assert (a + b)[1..] == b;
    } else {
      assert (a + b)[1..] == a[1..] + b;
      JoinAppend(a[1..], b, sep);
    }
  }

  function Names(items: seq<FoodItem>): (r: seq<string>)
    ensures |r| == |items|
    ensures forall i :: 0 <= i < |items| ==> r[i] == items[i].name
  {
    seq(|items|, i requires 0 <= i < |items| => items[i].name)
  }

  /** The analysis the client shows. The randomly drawn fiber, sugar and sodium figures are not modelled. */
  datatype Analysis = Analysis(
    nutrition: Nutrition,
    healthRisk: HealthRisk,
    bmiValue: Option<real>,
    bmiCategory: BmiCategory,
    dailyTargets: DailyTargets,
    recommendations: seq<string>,
    foodSuggestions: seq<string>,
    mealScore: int,
    analyzedFoods: string)

  /** The whole client-side analysis of a food list, for a user BMI and the four random draws. */
  function GenerateMockAnalysis(items: seq<FoodItem>, bmi: Option<real>, d: Draws): (a: Analysis)
    ensures a.nutrition == ApplyVariance(Aggregate(items), d)
    ensures a.nutrition.calories >= 200 && a.nutrition.protein >= 5.0
    ensures a.nutrition.carbs >= 10.0 && a.nutrition.fats >= 2.0
    ensures a.mealScore == MealScore(a.nutrition) && 60 <= a.mealScore <= 100
    ensures a.healthRisk == AssessRisk(a.nutrition)
    ensures a.recommendations == Recommendations(a.nutrition)
    ensures a.foodSuggestions == FoodSuggestions
    ensures a.healthRisk.score == RiskScore(a.healthRisk.level)
    ensures a.healthRisk.level == HighRisk <==> a.nutrition.calories > 800
    ensures |a.recommendations| == 5
    ensures a.bmiValue == bmi && a.bmiCategory == ClientBmiCategory(bmi)
    ensures a.dailyTargets == FixedTargets
    ensures a.analyzedFoods == Join(Names(items), ", ")
  {
    var n := ApplyVariance(Aggregate(items), d);
    Analysis(
      n,
      AssessRisk(n),
      bmi,
      ClientBmiCategory(bmi),
      FixedTargets,
      Recommendations(n),
      FoodSuggestions,
      MealScore(n),
      Join(Names(items), ", "))
  }

  /** Why the analyze button did nothing. */
  datatype AnalyzeRefusal = AnalysisInProgress | NoFoodItems

  /**
   * The analyze button: refused while an analysis is running, then refused on an empty
   * list; otherwise the list is analysed.
   */
  function AnalyzeMeal(items: seq<FoodItem>, inProgress: bool, bmi: Option<real>, d: Draws)
    : (r: Result<Analysis, AnalyzeRefusal>)
    ensures inProgress ==> r == Err(AnalysisInProgress)
    ensures !inProgress && items == [] ==> r == Err(NoFoodItems)
    ensures r.Ok? <==> !inProgress && items != []
    ensures r.Ok? ==> r.value == GenerateMockAnalysis(items, bmi, d)
  {
    if inProgress then Err(AnalysisInProgress)
    else if items == [] then Err(NoFoodItems)
    else Ok(GenerateMockAnalysis(items, bmi, d))
  }

  /** Draws of one half give a factor of exactly 1, so the totals are only rounded and floored. */
  const NeutralDraws := Draws(0.5, 0.5, 0.5, 0.5)

  /** Two servings of chicken breast: base totals 330 kcal, 62 g protein, 0 g carbohydrates, 7.2 g fats. */
  lemma ChickenBreastExample()
    ensures Aggregate([FoodItem("chicken breast", 2.0, "serving")]) == Macros(330.0, 62.0, 0.0, 7.2)
  {
    ChickenBreastRow();
    SingleItemTotals(FoodItem("chicken breast", 2.0, "serving"), Macros(165.0, 31.0, 0.0, 3.6));
  }

  /** A one-item list totals the item's per-serving values times its quantity. */
  lemma SingleItemTotals(item: FoodItem, v: Macros)
    requires PerServing(item.name) == v
    ensures Aggregate([item]) == v.Times(item.quantity)
  {
    AggregateSingle(item);
  }

  lemma ChickenBreastRow()
    ensures PerServing("chicken breast") == Macros(165.0, 31.0, 0.0, 3.6)
  {
    var s := Lower("chicken breast");
    assert s == "chicken breast";
    assert !Contains(s, "apple") && !Contains(s, "banana") && Contains(s, "chicken breast");
    assert FindKeyFrom(s, 2) == Some(2);
    assert FindKeyFrom(s, 1) == Some(2);
  }

  /** With neutral draws the chicken-breast totals come back unchanged, except carbohydrates raised to their 10 g minimum. */
  lemma ChickenBreastNeutralDraws()
    ensures ApplyVariance(Macros(330.0, 62.0, 0.0, 7.2), NeutralDraws) == Nutrition(330, 62.0, 10.0, 7.2)
  {
    JsRoundOfInteger(330);
    JsRoundOfInteger(620);
    JsRoundOfInteger(0);
    JsRoundOfInteger(72);
  }

  /** A food no table key matches is counted at the unknown-food values. */
  lemma UnknownFoodExample()
    ensures Aggregate([FoodItem("mystery food", 1.0, "serving")]) == UnknownFood
  {
    MysteryFoodUnmatched();
    SingleItemTotals(FoodItem("mystery food", 1.0, "serving"), UnknownFood);
  }

  lemma MysteryFoodUnmatched()
    ensures MatchKey("mystery food") == None
  {
    assert Lower("mystery food") == "mystery food";
    NoKeyLetterNoMatch("mystery food");
  }

  /** Every table key holds one of the letters a, c, g or i, so a name lacking all four matches no key. */
  lemma NoKeyLetterNoMatch(s: string)
    requires 'a' !in s && 'c' !in s && 'g' !in s && 'i' !in s
    ensures FindKeyFrom(s, 0) == None
  {
    MissingCharExcludes(s, FoodTable[11].0, 0);
    assert FindKeyFrom(s, 11) == None;
    MissingCharExcludes(s, FoodTable[10].0, 0);
    assert FindKeyFrom(s, 10) == None;
    MissingCharExcludes(s, FoodTable[9].0, 2);
    assert FindKeyFrom(s, 9) == None;
    MissingCharExcludes(s, FoodTable[8].0, 1);
    assert FindKeyFrom(s, 8) == None;
    MissingCharExcludes(s, FoodTable[7].0, 3);
    assert FindKeyFrom(s, 7) == None;
    MissingCharExcludes(s, FoodTable[6].0, 1);
    assert FindKeyFrom(s, 6) == None;
    MissingCharExcludes(s, FoodTable[5].0, 1);
    assert FindKeyFrom(s, 5) == None;
    MissingCharExcludes(s, FoodTable[4].0, 3);
    assert FindKeyFrom(s, 4) == None;
    MissingCharExcludes(s, FoodTable[3].0, 8);
    assert FindKeyFrom(s, 3) == None;
    MissingCharExcludes(s, FoodTable[2].0, 0);
    assert FindKeyFrom(s, 2) == None;
    MissingCharExcludes(s, FoodTable[1].0, 1);
    assert FindKeyFrom(s, 1) == None;
    MissingCharExcludes(s, FoodTable[0].0, 0);
    assert FindKeyFrom(s, 0) == None;
  }

  /** A name that both "bread" and "milk" occur in takes the values of "bread", the earlier table row. */
  lemma TableOrderDecides()
    ensures PerServing("Milk Bread") == FoodTable[7].1
  {
    var s := Lower("Milk Bread");
    assert s == "milk bread";
    assert Contains(s, "bread");
    assert FindKeyFrom(s, 7) == Some(7);
    assert !Contains(s, "salmon") && !Contains(s, "eggs");
    assert FindKeyFrom(s, 5) == Some(7);
    assert !Contains(s, "brown rice") && !Contains(s, "broccoli");
    assert FindKeyFrom(s, 3) == Some(7);
    assert !Contains(s, "chicken breast") && !Contains(s, "banana") && !Contains(s, "apple");
    assert FindKeyFrom(s, 0) == Some(7);
  }

  /** Whenever "bread" occurs in a name, the "milk" row can never be the one chosen. */
  lemma BreadShadowsMilk(name: string)
    requires Contains(Lower(name), "bread")
    ensures MatchKey(name).Some? && MatchKey(name).value <= 7
  {
    assert FoodTable[7].0 == "bread";
  }
}

=== FILE: meal_history.dfy ===
/**
 * The server's view of a user's logged meals: the streak of consecutive days, ending
 * today, on which a meal was logged, and the meal-history listing — filter by a time
 * window and a meal type, newest first, one page at a time.
 *
 * Timestamps and calendar days are integers: the server stores ISO-8601 strings of one
 * fixed format, whose string order and chronological order coincide.
 */
module MealHistory {
  import opened Results

  // ---------------------------------------------------------------------------
  // Streak
  // ---------------------------------------------------------------------------

  /** `k` days, ending `today`, each have a meal, and the day before them has none. */
  predicate IsStreak(days: set<int>, today: int, k: nat) {
    (forall d :: today - k < d <= today ==> d in days) && today - k !in days
  }

  /** The `k` days ending `today`. */
  function RunSet(today: int, k: nat): set<int>
    decreases k
  {
    if k == 0 then {} else RunSet(today, k - 1) + {today - (k - 1)}
  }

  lemma {:induction false} RunSetFacts(today: int, k: nat)
    ensures |RunSet(today, k)| == k
    ensures forall x :: x in RunSet(today, k) <==> today - k < x <= today
    decreases k
  {
    if k > 0 {
      RunSetFacts(today, k - 1);
      assert today - (k - 1) !in RunSet(today, k - 1);
    }
  }

  lemma SubsetOfSameSize(a: set<int>, b: set<int>)
    requires a <= b && |a| == |b|
    ensures a == b
  {
    var rest := b - a;
    assert b == a + rest;
    assert a !! rest;
    assert |rest| == 0;
  }

  /**
   * When every one of the `n` distinct meal days lies in the run of `n` days ending
   * `today`, the day before that run has no meal.
   */
  lemma RunFillsDays(days: set<int>, today: int)
    requires forall d :: today - |days| < d <= today ==> d in days
    ensures today - |days| !in days
  {
    var n := |days|;
    RunSetFacts(today, n);
    forall x | x in RunSet(today, n) ensures x in days {
    }
    SubsetOfSameSize(RunSet(today, n), days);
  }

  /** The streak is the one length that has a meal on each of its days and none on the day before. */
  lemma StreakUnique(days: set<int>, today: int, k1: nat, k2: nat)
    requires IsStreak(days, today, k1) && IsStreak(days, today, k2)
    ensures k1 == k2
  {
  }

  /** The distinct calendar days of the given meal days. */
  function DaySet(mealDays: seq<int>): (days: set<int>)
    ensures forall d :: d in days <==> d in mealDays
  {
    set d | d in mealDays
  }

  /**
   * The logging streak: no history gives 0; otherwise walk back from `today`, one day at a
   * time and at most once per distinct meal day, while each day has a meal.
   */
  method CalculateStreak(mealDays: Option<seq<int>>, today: int) returns (streak: nat)
    ensures mealDays.None? ==> streak == 0
    ensures mealDays.Some? ==> IsStreak(DaySet(mealDays.value), today, streak)
    ensures mealDays.Some? ==> streak <= |DaySet(mealDays.value)|
    ensures mealDays.Some? && today !in mealDays.value ==> streak == 0
  {
    if mealDays.None? {
      return 0;
    }
    var dates := DaySet(mealDays.value);
    var n := |dates|;
    streak := 0;
    var i := 0;
    while i < n
      invariant 0 <= i <= n && streak == i
      invariant forall d :: today - i < d <= today ==> d in dates
    {
      if today - i in dates {
        streak := streak + 1;
      } else {
        break;
      }
      i := i + 1;
    }
    if streak == n {
      RunFillsDays(dates, today);
    }
  }

  // ---------------------------------------------------------------------------
  // Meal listing
  // ---------------------------------------------------------------------------

  /** A logged meal, as far as the listing looks at it. */
  datatype Meal = Meal(id: string, timestamp: int, mealType: Option<string>)

  /** The selecting part of the query string: optional window ends and an optional meal type. */
  datatype MealFilter = MealFilter(startDate: Option<int>, endDate: Option<int>, mealType: Option<string>)

  /** The whole query string: the selection, and an optional page size and page start. */
  datatype MealQuery = MealQuery(filter: MealFilter, limit: Option<int>, offset: Option<int>)

  const DefaultLimit: int := 50
  const DefaultOffset: int := 0

  datatype Pagination = Pagination(total: nat, limit: int, offset: int, hasMore: bool)

  /** The response: a user with no history gets an empty list and no pagination block. */
  datatype MealsResponse =
    | NoHistory
    | Page(meals: seq<Meal>, pagination: Pagination)

  /** The elements of `s` that satisfy `p`, in their order in `s`. */
  function Filter<T(!new)>(s: seq<T>, p: T -> bool): (r: seq<T>)
    ensures |r| <= |s|
    ensures forall x :: x in r <==> x in s && p(x)
    decreases |s|
  {
    if s == [] then [] else (if p(s[0]) then [s[0]] else []) + Filter(s[1..], p)
  }

  lemma {:induction false} FilterAppend<T(!new)>(a: seq<T>, b: seq<T>, p: T -> bool)
    ensures Filter(a + b, p) == Filter(a, p) + Filter(b, p)
    decreases |a|
  {
    if a == [] {
      assert a + b == b;
    } else {
      assert (a + b)[0] == a[0];
      assert (a + b)[1..] == a[1..] + b;
      FilterAppend(a[1..], b, p);
    }
  }

  /** Python truthiness of an optional string parameter: absent and empty both mean "no filter". */
  predicate Given(s: Option<string>) {
    s.Some? && s.value != []
  }

  predicate AfterStart(q: MealFilter, m: Meal) {
    q.startDate.None? || m.timestamp >= q.startDate.value
  }

  predicate BeforeEnd(q: MealFilter, m: Meal) {
    q.endDate.None? || m.timestamp <= q.endDate.value
  }

  predicate OfType(q: MealFilter, m: Meal) {
    !Given(q.mealType) || m.mealType == q.mealType
  }

  /** A meal the query selects: inside the window (both ends inclusive) and of the asked type. */
  predicate Selected(q: MealFilter, m: Meal) {
    AfterStart(q, m) && BeforeEnd(q, m) && OfType(q, m)
  }

  /** The three filters, applied one after another as the server does. */
  function FilterMeals(meals: seq<Meal>, q: MealFilter): (r: seq<Meal>)
    ensures |r| <= |meals|
    ensures forall m :: m in r <==> m in meals && Selected(q, m)
  {
    var afterStart := if q.startDate.Some? then Filter(meals, m => AfterStart(q, m)) else meals;
    var beforeEnd := if q.endDate.Some? then Filter(afterStart, m => BeforeEnd(q, m)) else afterStart;
    if Given(q.mealType) then Filter(beforeEnd, m => OfType(q, m)) else beforeEnd
  }

  lemma {:induction false} FilterAll<T(!new)>(s: seq<T>, p: T -> bool)
    requires forall x :: p(x)
    ensures Filter(s, p) == s
    decreases |s|
  {
    if s != [] {
      FilterAll(s[1..], p);
      assert [s[0]] + s[1..] == s;
    }
  }

  /** Filtering by `p` and then by `q` is filtering once by any `r` that holds exactly when both do. */
  lemma {:induction false} FilterTwice<T(!new)>(s: seq<T>, p: T -> bool, q: T -> bool, r: T -> bool)
    requires forall x :: r(x) == (p(x) && q(x))
    ensures Filter(Filter(s, p), q) == Filter(s, r)
    decreases |s|
  {
    if s != [] {
      FilterTwice(s[1..], p, q, r);
      var head := if p(s[0]) then [s[0]] else [];
      FilterAppend(head, Filter(s[1..], p), q);
      if p(s[0]) {
        FilterCons(s[0], [], q);
      }
    }
  }

  lemma FilterCons<T(!new)>(x: T, s: seq<T>, p: T -> bool)
    ensures Filter([x] + s, p) == (if p(x) then [x] else []) + Filter(s, p)
  {
    assert ([x] + s)[0] == x;
    assert ([x] + s)[1..] == s;
  }

  lemma WindowStep(meals: seq<Meal>, q: MealFilter)
    ensures var a := if q.startDate.Some? then Filter(meals, (m: Meal) => AfterStart(q, m)) else meals;
            var b := if q.endDate.Some? then Filter(a, (m: Meal) => BeforeEnd(q, m)) else a;
            b == Filter(meals, (m: Meal) => AfterStart(q, m) && BeforeEnd(q, m))
  {
    var pa := (m: Meal) => AfterStart(q, m);
    var pb := (m: Meal) => BeforeEnd(q, m);
    var pab := (m: Meal) => AfterStart(q, m) && BeforeEnd(q, m);
    var a := if q.startDate.Some? then Filter(meals, pa) else meals;
    if q.startDate.None? {
      FilterAll(meals, pa);
    }
    if q.endDate.None? {
      FilterAll(a, pb);
    }
    FilterTwice(meals, pa, pb, pab);
  }

  /** The meals the query selects, in their logged order. */
  function Selection(meals: seq<Meal>, q: MealFilter): seq<Meal> {
    Filter(meals, (m: Meal) => Selected(q, m))
  }

  /** The three filters in a row keep exactly the selected meals, in their logged order. */
  lemma FilterMealsSelects(meals: seq<Meal>, q: MealFilter)
    ensures FilterMeals(meals, q) == Selection(meals, q)
  {
    var pab := (m: Meal) => AfterStart(q, m) && BeforeEnd(q, m);
    var pc := (m: Meal) => OfType(q, m);
    var a := if q.startDate.Some? then Filter(meals, (m: Meal) => AfterStart(q, m)) else meals;
    var b := if q.endDate.Some? then Filter(a, (m: Meal) => BeforeEnd(q, m)) else a;
    WindowStep(meals, q);
    assert b == Filter(meals, pab);
    if !Given(q.mealType) {
      FilterAll(b, pc);
    }
    FilterTwice(meals, pab, pc, (m: Meal) => Selected(q, m));
  }

  // ---------------------------------------------------------------------------
  // Newest first, stably
  // ---------------------------------------------------------------------------

  /** Newest first. */
  predicate NewestFirst(s: seq<Meal>) {
    forall i, j :: 0 <= i < j < |s| ==> s[i].timestamp >= s[j].timestamp
  }

  /** Place `m` before the first meal that is not newer than it. */
  function InsertNewestFirst(m: Meal, s: seq<Meal>): (r: seq<Meal>)
    ensures multiset(r) == multiset(s) + multiset{m}
    decreases |s|
  {
    if s == [] || s[0].timestamp <= m.timestamp then [m] + s
    else
      assert s == [s[0]] + s[1..];
      [s[0]] + InsertNewestFirst(m, s[1..])
  }

  lemma ConsNewestFirst(h: Meal, t: seq<Meal>)
    requires NewestFirst(t)
    requires forall k :: 0 <= k < |t| ==> h.timestamp >= t[k].timestamp
    ensures NewestFirst([h] + t)
  {
    var r := [h] + t;
    forall i, j | 0 <= i < j < |r| ensures r[i].timestamp >= r[j].timestamp {
      assert r[j] == t[j - 1];
      if i > 0 {
        assert r[i] == t[i - 1];
      }
    }
  }

  lemma {:induction false} InsertKeepsOrder(m: Meal, s: seq<Meal>)
    requires NewestFirst(s)
    ensures NewestFirst(InsertNewestFirst(m, s))
    decreases |s|
  {
    if s == [] || s[0].timestamp <= m.timestamp {
      ConsNewestFirst(m, s);
    } else {
      var rest := InsertNewestFirst(m, s[1..]);
      InsertKeepsOrder(m, s[1..]);
      forall k | 0 <= k < |rest| ensures s[0].timestamp >= rest[k].timestamp {
        NewerThanInserted(m, s, rest[k]);
      }
      ConsNewestFirst(s[0], rest);
    }
  }

  /** Every meal of the insertion into the tail of `s` is no newer than the head of `s`. */
  lemma NewerThanInserted(m: Meal, s: seq<Meal>, x: Meal)
    requires NewestFirst(s) && s != [] && s[0].timestamp > m.timestamp
    requires x in multiset(InsertNewestFirst(m, s[1..]))
    ensures s[0].timestamp >= x.timestamp
  {
    if x != m {
      assert x in multiset(s[1..]);
      var i :| 0 <= i < |s[1..]| && s[1..][i] == x;
      assert s[i + 1] == x;
    }
  }

  /**
   * Python's `sorted(..., key=timestamp, reverse=True)`: newest first, and meals with equal
   * timestamps keep their relative order.
   */
  function SortNewestFirst(s: seq<Meal>): (r: seq<Meal>)
    ensures multiset(r) == multiset(s)
    decreases |s|
  {
    if s == [] then []
    else
      assert s == [s[0]] + s[1..];
      InsertNewestFirst(s[0], SortNewestFirst(s[1..]))
  }

  /** The sorted list is newest first. */
  lemma {:induction false} SortIsNewestFirst(s: seq<Meal>)
    ensures NewestFirst(SortNewestFirst(s))
    decreases |s|
  {
    if s != [] {
      SortIsNewestFirst(s[1..]);
      InsertKeepsOrder(s[0], SortNewestFirst(s[1..]));
    }
  }

  /** The meals of `s` stamped `t`, in order. */
  function WithTimestamp(s: seq<Meal>, t: int): seq<Meal> {
    Filter(s, (m: Meal) => m.timestamp == t)
  }

  lemma {:induction false} InsertKeepsTies(m: Meal, s: seq<Meal>, t: int)
    ensures WithTimestamp(InsertNewestFirst(m, s), t)
         == (if m.timestamp == t then [m] else []) + WithTimestamp(s, t)
    decreases |s|
  {
    var p := (x: Meal) => x.timestamp == t;
    if s == [] || s[0].timestamp <= m.timestamp {
      FilterCons(m, s, p);
    } else {
      var rest := InsertNewestFirst(m, s[1..]);
      InsertKeepsTies(m, s[1..], t);
      FilterCons(s[0], rest, p);
      FilterCons(s[0], s[1..], p);
      assert [s[0]] + s[1..] == s;
    }
  }

  /** The sort is stable: for every timestamp, the meals carrying it stay in their original order. */
  lemma {:induction false} SortIsStable(s: seq<Meal>, t: int)
    ensures WithTimestamp(SortNewestFirst(s), t) == WithTimestamp(s, t)
    decreases |s|
  {
    if s != [] {
      var p := (x: Meal) => x.timestamp == t;
      SortIsStable(s[1..], t);
      InsertKeepsTies(s[0], SortNewestFirst(s[1..]), t);
      FilterCons(s[0], s[1..], p);
      assert [s[0]] + s[1..] == s;
    }
  }

  // ---------------------------------------------------------------------------
  // Pages
  // ---------------------------------------------------------------------------

  /** Where a Python slice bound lands in a sequence of length `n`: negative counts from the end; clipped to [0, n]. */
  function SliceBound(i: int, n: nat): (b: nat)
    ensures b <= n
    ensures 0 <= i <= n ==> b == i
    ensures i > n ==> b == n
    ensures i < 0 ==> b == if i + n < 0 then 0 else i + n
  {
    if i < 0 then (if i + n < 0 then 0 else i + n)
    else if i > n then n
    else i
  }

  /** Python's `s[start:stop]`. */
  function PySlice<T>(s: seq<T>, start: int, stop: int): (r: seq<T>)
    ensures |r| <= |s|
    ensures |r| == if SliceBound(start, |s|) < SliceBound(stop, |s|) then SliceBound(stop, |s|) - SliceBound(start, |s|) else 0
    ensures forall k :: 0 <= k < |r| ==> SliceBound(start, |s|) + k < |s| && r[k] == s[SliceBound(start, |s|) + k]
  {
    var a, b := SliceBound(start, |s|), SliceBound(stop, |s|);
    if a < b then s[a..b] else []
  }

  /** With a non-negative start and size, a page holds the meals from the start on, at most `limit` of them. */
  lemma PageContents<T>(s: seq<T>, offset: int, limit: int)
    requires offset >= 0 && limit >= 0
    ensures var r := PySlice(s, offset, offset + limit);
            && |r| == (if offset >= |s| then 0 else if offset + limit > |s| then |s| - offset else limit)
            && forall k :: 0 <= k < |r| ==> r[k] == s[offset + k]
  {
  }

  /** Two pages in a row of the same size make up the double-size page starting at the first. */
  lemma ConsecutivePages<T>(s: seq<T>, offset: int, limit: int)
    requires offset >= 0 && limit >= 0
    ensures PySlice(s, offset, offset + limit) + PySlice(s, offset + limit, offset + 2 * limit)
         == PySlice(s, offset, offset + 2 * limit)
  {
    var n := |s|;
    var a, b, c := SliceBound(offset, n), SliceBound(offset + limit, n), SliceBound(offset + 2 * limit, n);
    if a < b && b < c {
      assert s[a..b] + s[b..c] == s[a..c];
    }
  }

  /** The selected meals, newest first; meals logged at the same instant keep their logged order. */
  function Listing(meals: seq<Meal>, f: MealFilter): (sorted: seq<Meal>)
    ensures sorted == SortNewestFirst(Selection(meals, f))
    ensures NewestFirst(sorted)
    ensures multiset(sorted) == multiset(Selection(meals, f))
  {
    FilterMealsSelects(meals, f);
    SortIsNewestFirst(FilterMeals(meals, f));
    SortNewestFirst(FilterMeals(meals, f))
  }

  /**
   * The listing: the selected meals, newest first, then the page from `offset` of size
   * `limit` (50 and 0 when not given); `hasMore` says whether meals lie past the page.
   */
  function GetMeals(history: Option<seq<Meal>>, q: MealQuery): (r: MealsResponse)
    ensures history.None? <==> r.NoHistory?
    ensures r.Page? ==> && r.pagination.limit == q.limit.GetOr(DefaultLimit)
                        && r.pagination.offset == q.offset.GetOr(DefaultOffset)
    ensures r.Page? ==> r.meals == PySlice(SortNewestFirst(Selection(history.value, q.filter)),
                                           r.pagination.offset, r.pagination.offset + r.pagination.limit)
    ensures r.Page? ==> r.pagination.total == |Selection(history.value, q.filter)|
    ensures r.Page? ==> forall m :: m in r.meals ==> m in history.value && Selected(q.filter, m)
    ensures r.Page? ==> NewestFirst(r.meals)
    ensures r.Page? ==> r.pagination.limit >= 0 ==> |r.meals| <= r.pagination.limit
    ensures r.Page? ==> (r.pagination.hasMore <==> r.pagination.offset + r.pagination.limit < r.pagination.total)
  {
    match history
    case None => NoHistory
    case Some(meals) =>
      var limit := q.limit.GetOr(DefaultLimit);
      var offset := q.offset.GetOr(DefaultOffset);
      var sorted := Listing(meals, q.filter);
      PageOfListing(meals, q.filter, offset, limit);
      var total := |sorted|;
      Page(PySlice(sorted, offset, offset + limit), Pagination(total, limit, offset, offset + limit < total))
  }

  /** A page of the listing: newest first, only selected meals, never more than the page size; the listing is as long as the selection. */
  lemma PageOfListing(meals: seq<Meal>, f: MealFilter, offset: int, limit: int)
    ensures |Listing(meals, f)| == |Selection(meals, f)|
    ensures var page := PySlice(Listing(meals, f), offset, offset + limit);
            && NewestFirst(page)
            && (forall m :: m in page ==> m in meals && Selected(f, m))
            && (limit >= 0 ==> |page| <= limit)
  {
    var sorted := Listing(meals, f);
    var page := PySlice(sorted, offset, offset + limit);
    SortedSliceNewestFirst(sorted, offset, offset + limit);
    SliceMembers(sorted, offset, offset + limit);
    if limit >= 0 {
      SliceAtMost(sorted, offset, limit);
    }
    forall m | m in page ensures m in meals && Selected(f, m) {
      assert m in multiset(Selection(meals, f));
      SelectionMember(meals, f, m);
    }
    assert |multiset(sorted)| == |multiset(Selection(meals, f))|;
  }

  lemma SelectionMember(meals: seq<Meal>, f: MealFilter, m: Meal)
    ensures m in Selection(meals, f) <==> m in meals && Selected(f, m)
  {
  }

  lemma SliceAtMost<T>(s: seq<T>, offset: int, limit: int)
    requires limit >= 0
    ensures |PySlice(s, offset, offset + limit)| <= limit
  {
  }

  lemma SortedSliceNewestFirst(s: seq<Meal>, start: int, stop: int)
    requires NewestFirst(s)
    ensures NewestFirst(PySlice(s, start, stop))
  {
  }

  lemma SliceMembers<T>(s: seq<T>, start: int, stop: int)
    ensures forall x :: x in PySlice(s, start, stop) ==> x in s
  {
    var a, b := SliceBound(start, |s|), SliceBound(stop, |s|);
    if a < b {
      forall x | x in s[a..b] ensures x in s {
        var k :| a <= k < b && s[k] == x;
      }
    }
  }

  /** For a page size above zero and a non-negative start, `hasMore` holds exactly when the next page is not empty. */
  lemma HasMoreMeansNextPage(history: seq<Meal>, f: MealFilter, offset: int, limit: int)
    requires limit > 0 && offset >= 0
    ensures GetMeals(Some(history), MealQuery(f, Some(limit), Some(offset))).pagination.hasMore
        <==> GetMeals(Some(history), MealQuery(f, Some(limit), Some(offset + limit))).meals != []
  {
    var sorted := Listing(history, f);
    PageAt(history, f, offset, limit);
    PageAt(history, f, offset + limit, limit);
    assert offset + limit + limit == offset + 2 * limit;
    NextPageNonEmpty(sorted, offset, limit);
  }

  /** The page a query with both bounds given returns, and its `hasMore`, in terms of the listing. */
  lemma PageAt(history: seq<Meal>, f: MealFilter, offset: int, limit: int)
    ensures var r := GetMeals(Some(history), MealQuery(f, Some(limit), Some(offset)));
            && r.meals == PySlice(Listing(history, f), offset, offset + limit)
            && (r.pagination.hasMore <==> offset + limit < |Listing(history, f)|)
  {
    PageOfListing(history, f, offset, limit);
  }

  lemma NextPageNonEmpty<T>(s: seq<T>, offset: int, limit: int)
    requires offset >= 0 && limit > 0
    ensures PySlice(s, offset + limit, offset + 2 * limit) != [] <==> offset + limit < |s|
  {
  }
}

=== FILE: results.dfy ===
/** Optional values and success-or-error results shared by the modules of the model. */
module Results {

  /** A value that may be missing: an absent JSON field, an undefined JavaScript property. */
  datatype Option<+T> = None | Some(value: T) {

    /** The carried value, or `default` when there is none (Python's `dict.get(key, default)`). */
    function GetOr(default: T): T {
      match this
      case Some(v) => v
      case None => default
    }
  }

  /** The outcome of an operation that either produces a value or refuses with an error. */
  datatype Result<+T, +E> = Ok(value: T) | Err(error: E)
}

=== FILE: rounding.dfy ===
/** The two rounding rules the system uses, stated on exact reals. */
module Rounding {

  /** JavaScript's `Math.round`: the nearest integer, ties rounded towards +infinity. */
  function JsRound(x: real): (r: int)
    ensures x - 0.5 < r as real <= x + 0.5
  {
    (x + 0.5).Floor
  }

  /** Python's built-in `round(x)`: the nearest integer, ties rounded to the even neighbour. */
  function PyRound(x: real): (r: int)
    ensures x - 0.5 <= r as real <= x + 0.5
    ensures (r as real == x - 0.5 || r as real == x + 0.5) ==> r % 2 == 0
  {
    var f := x.Floor;
    var d := x - f as real;
    if d < 0.5 then f
    else if d > 0.5 then f + 1
    else if f % 2 == 0 then f
    else f + 1
  }

  /** JavaScript's `Math.round(x * 10) / 10`: `x` to one decimal place. */
  function RoundTenth(x: real): (r: real)
    ensures x - 0.05 < r <= x + 0.05
    ensures (r * 10.0).Floor as real == r * 10.0
  {
    JsRound(x * 10.0) as real / 10.0
  }

  function Max(a: real, b: real): real {
    if a >= b then a else b
  }

  function Min(a: real, b: real): real {
    if a <= b then a else b
  }

  function Abs(a: real): real {
    if a >= 0.0 then a else -a
  }

  lemma JsRoundMonotone(x: real, y: real)
    requires x <= y
    ensures JsRound(x) <= JsRound(y)
  {
  }

  lemma JsRoundOfInteger(n: int)
    ensures JsRound(n as real) == n
  {
  }

  lemma RoundTenthMonotone(x: real, y: real)
    requires x <= y
    ensures RoundTenth(x) <= RoundTenth(y)
  {
    JsRoundMonotone(x * 10.0, y * 10.0);
  }

  lemma PyRoundMonotone(x: real, y: real)
    requires x <= y
    ensures PyRound(x) <= PyRound(y)
  {
  }
}

=== FILE: server_nutrition.dfy ===
/**
 * The server's food matching and totalling step of meal analysis: each requested food is
 * matched against an ordered nutrition table by a substring test in both directions, its
 * values are scaled by the quantity, and the scaled values are summed.
 */
module ServerNutrition {
  import opened Results
  import opened Text

  /** Calories, protein, carbohydrates, fats and fiber, per serving or in total. */
  datatype Nutrients = Nutrients(calories: real, protein: real, carbs: real, fats: real, fiber: real) {

    function Plus(o: Nutrients): Nutrients {
      Nutrients(calories + o.calories, protein + o.protein, carbs + o.carbs, fats + o.fats, fiber + o.fiber)
    }

    function Times(q: real): Nutrients {
      Nutrients(calories * q, protein * q, carbs * q, fats * q, fiber * q)
    }
  }

  const NoNutrients := Nutrients(0.0, 0.0, 0.0, 0.0, 0.0)

  /** The server's nutrition table, in insertion order (the order Python iterates a dict in). */
  const NutritionDb: seq<(string, Nutrients)> := [
    ("apple", Nutrients(95.0, 0.5, 25.0, 0.3, 4.4)),
    ("banana", Nutrients(105.0, 1.3, 27.0, 0.4, 3.1)),
    ("chicken breast", Nutrients(165.0, 31.0, 0.0, 3.6, 0.0)),
    ("rice", Nutrients(130.0, 2.7, 28.0, 0.3, 0.4)),
    ("pasta", Nutrients(131.0, 5.0, 25.0, 1.1, 1.2)),
    ("salad", Nutrients(15.0, 1.0, 3.0, 0.1, 1.5)),
    ("salmon", Nutrients(206.0, 22.0, 0.0, 13.0, 0.0)),
    ("eggs", Nutrients(72.0, 6.3, 0.4, 4.8, 0.0)),
    ("bread", Nutrients(79.0, 3.1, 15.0, 0.9, 0.9)),
    ("milk", Nutrients(42.0, 3.4, 5.0, 1.0, 0.0)),
    ("yogurt", Nutrients(59.0, 3.5, 4.7, 3.3, 0.0)),
    ("broccoli", Nutrients(34.0, 2.8, 7.0, 0.4, 2.6)),
    ("carrot", Nutrients(41.0, 0.9, 10.0, 0.2, 2.8)),
    ("potato", Nutrients(77.0, 2.0, 17.0, 0.1, 2.2)),
    ("cheese", Nutrients(113.0, 7.0, 0.4, 9.0, 0.0)),
    ("beef", Nutrients(250.0, 26.0, 0.0, 17.0, 0.0)),
    ("fish", Nutrients(206.0, 22.0, 0.0, 13.0, 0.0)),
    ("tofu", Nutrients(76.0, 8.0, 1.9, 4.8, 0.3)),
    ("beans", Nutrients(132.0, 8.7, 25.0, 0.5, 8.7)),
    ("nuts", Nutrients(607.0, 20.0, 21.0, 54.0, 7.0))
  ]

  /** Values assumed for a food no table key matches. */
  const DefaultNutrients := Nutrients(150.0, 5.0, 20.0, 5.0, 2.0)

  /** One element of the request's `food_items`; a field the client left out is `None`. */
  datatype RequestItem = RequestItem(name: Option<string>, quantity: Option<real>, unit: Option<string>)

  /** The name used for matching: lower-cased, then stripped of surrounding whitespace; a missing name is empty. */
  function FoodName(item: RequestItem): (r: string)
    ensures |r| <= |item.name.GetOr("")|
    ensures r == [] || (!IsPySpace(r[0]) && !IsPySpace(r[|r| - 1]))
    ensures forall k :: 0 <= k < |r| ==> !IsAsciiUpper(r[k])
    ensures exists i :: TrimmedAt(Lower(item.name.GetOr("")), r, i, IsPySpace)
  {
    var lowered := Lower(item.name.GetOr(""));
    var r := PyStrip(lowered);
    var i :| TrimmedAt(lowered, r, i, IsPySpace);
    assert forall k :: 0 <= k < |r| ==> r[k] == lowered[i + k];
    r
  }

  /** A missing quantity counts as one serving. */
  function Quantity(item: RequestItem): real {
    item.quantity.GetOr(1.0)
  }

  function Unit(item: RequestItem): string {
    item.unit.GetOr("serving")
  }

  /** The server's match test: the key occurs in the name, or the name occurs in the key. */
  predicate KeyMatches(key: string, foodName: string) {
    Contains(foodName, key) || Contains(key, foodName)
  }

  /** The first table row at or after `from` whose key matches `foodName`. */
  function FindEntryFrom(foodName: string, from: nat): (r: Option<nat>)
    requires from <= |NutritionDb|
    ensures r.Some? ==> && from <= r.value < |NutritionDb|
                        && KeyMatches(NutritionDb[r.value].0, foodName)
                        && forall j :: from <= j < r.value ==> !KeyMatches(NutritionDb[j].0, foodName)
    ensures r.None? ==> forall j :: from <= j < |NutritionDb| ==> !KeyMatches(NutritionDb[j].0, foodName)
    decreases |NutritionDb| - from
  {
    if from == |NutritionDb| then None
    else if KeyMatches(NutritionDb[from].0, foodName) then Some(from)
    else FindEntryFrom(foodName, from + 1)
  }

  /** Per-serving values of a food: the first matching table row, else the default values. */
  function Lookup(foodName: string): (v: Nutrients)
    ensures v == DefaultNutrients <==> forall j :: 0 <= j < |NutritionDb| ==> !KeyMatches(NutritionDb[j].0, foodName)
    ensures forall k :: 0 <= k < |NutritionDb| && KeyMatches(NutritionDb[k].0, foodName)
                        && (forall j :: 0 <= j < k ==> !KeyMatches(NutritionDb[j].0, foodName))
                        ==> v == NutritionDb[k].1
    ensures v == DefaultNutrients || exists k :: 0 <= k < |NutritionDb| && KeyMatches(NutritionDb[k].0, foodName) && v == NutritionDb[k].1
  {
    match FindEntryFrom(foodName, 0)
    case Some(k) => NutritionDb[k].1
    case None => DefaultNutrients
  }

  /** One entry of the response's `food_details`: the name used for matching (the server title-cases it for display), quantity, unit and scaled values. */
  datatype ProcessedItem = ProcessedItem(name: string, quantity: real, unit: string, nutrition: Nutrients)

  function Process(item: RequestItem): (p: ProcessedItem)
    ensures p.name == FoodName(item) && p.quantity == item.quantity.GetOr(1.0) && p.unit == item.unit.GetOr("serving")
    ensures p.nutrition == Lookup(p.name).Times(p.quantity)
  {
    var name := FoodName(item);
    ProcessedItem(name, Quantity(item), Unit(item), Lookup(name).Times(Quantity(item)))
  }

  /** The running totals and the processed items, in request order. */
  datatype MealTotals = MealTotals(totals: Nutrients, items: seq<ProcessedItem>)

  /** The loop over the requested foods. */
  function Accumulate(items: seq<RequestItem>): (r: MealTotals)
    ensures |r.items| == |items|
    ensures forall i :: 0 <= i < |items| ==> r.items[i] == Process(items[i])
    decreases |items|
  {
    if items == [] then MealTotals(NoNutrients, [])
    else
      var prefix := Accumulate(items[..|items| - 1]);
      var p := Process(items[|items| - 1]);
      ExtendProcessed(items, prefix.items);
      MealTotals(prefix.totals.Plus(p.nutrition), prefix.items + [p])
  }

  /** Processing the last item after the others gives one processed entry per item, in order. */
  lemma ExtendProcessed(items: seq<RequestItem>, prefix: seq<ProcessedItem>)
    requires items != [] && |prefix| == |items| - 1
    requires forall i :: 0 <= i < |prefix| ==> prefix[i] == Process(items[..|items| - 1][i])
    ensures var r := prefix + [Process(items[|items| - 1])];
            |r| == |items| && forall i :: 0 <= i < |items| ==> r[i] == Process(items[i])
  {
    var r := prefix + [Process(items[|items| - 1])];
    forall i | 0 <= i < |items|
      ensures r[i] == Process(items[i])
    {
      if i < |prefix| {
        assert items[..|items| - 1][i] == items[i];
      }
    }
  }

  /** Sum of the scaled values of processed items. */
  function SumNutrition(items: seq<ProcessedItem>): Nutrients
    decreases |items|
  {
    if items == [] then NoNutrients else items[0].nutrition.Plus(SumNutrition(items[1..]))
  }

  lemma {:induction false} SumNutritionAppend(a: seq<ProcessedItem>, p: ProcessedItem)
    ensures SumNutrition(a + [p]) == SumNutrition(a).Plus(p.nutrition)
    decreases |a|
  {
    if a == [] {
      assert [p][1..] == [];
    } else {
      assert (a + [p])[1..] == a[1..] + [p];
      SumNutritionAppend(a[1..], p);
    }
  }

  /** The totals are exactly the sum of the reported per-item values. */
  lemma {:induction false} TotalsAreSumOfItems(items: seq<RequestItem>)
    ensures Accumulate(items).totals == SumNutrition(Accumulate(items).items)
    decreases |items|
  {
    if items != [] {
      var prefix := Accumulate(items[..|items| - 1]);
      TotalsAreSumOfItems(items[..|items| - 1]);
      SumNutritionAppend(prefix.items, Process(items[|items| - 1]));
    }
  }

  /** The two request checks that answer 400 before any matching is done. */
  datatype AnalyzeError = FoodItemsRequired | AtLeastOneItemRequired

  /** The request's `food_items` (`None` when absent) validated, matched and totalled. */
  function AnalyzeFoodItems(foodItems: Option<seq<RequestItem>>): (r: Result<MealTotals, AnalyzeError>)
    ensures foodItems.None? ==> r == Err(FoodItemsRequired)
    ensures foodItems == Some([]) ==> r == Err(AtLeastOneItemRequired)
    ensures r.Ok? <==> foodItems.Some? && foodItems.value != []
    ensures r.Ok? ==> r.value == Accumulate(foodItems.value)
    ensures r.Ok? ==> |r.value.items| == |foodItems.value|
                      && r.value.totals == SumNutrition(r.value.items)
  {
    match foodItems
    case None => Err(FoodItemsRequired)
    case Some(items) =>
      if items == [] then Err(AtLeastOneItemRequired)
      else
        TotalsAreSumOfItems(items);
        Ok(Accumulate(items))
  }

  /** An empty (or missing, or blank) name occurs in every key, so it always takes the first row, "apple". */
  lemma EmptyNameMatchesFirstKey(item: RequestItem)
    requires FoodName(item) == []
    ensures Lookup(FoodName(item)) == NutritionDb[0].1
  {
    ContainsEmpty(NutritionDb[0].0);
  }

  /** A name missing from the request is treated as empty. */
  lemma MissingNameMatchesApple(quantity: Option<real>, unit: Option<string>)
    ensures Process(RequestItem(None, quantity, unit)).nutrition == NutritionDb[0].1.Times(Quantity(RequestItem(None, quantity, unit)))
  {
    var item := RequestItem(None, quantity, unit);
    assert Lower("") == "";
    assert FoodName(item) == [];
    EmptyNameMatchesFirstKey(item);
  }

  /** The reverse direction of the test: "egg" occurs in the key "eggs", and no earlier key matches it. */
  lemma EggMatchesEggs()
    ensures FindEntryFrom("egg", 0) == Some(7)
  {
    var s := "egg";
    assert Contains("eggs", s);
    assert FindEntryFrom(s, 7) == Some(7);
    // Each earlier key lacks the letter 'g' and is too long to occur in "egg".
    EarlierKeyMisses(6, "salmon");
    assert FindEntryFrom(s, 6) == Some(7);
    EarlierKeyMisses(5, "salad");
    assert FindEntryFrom(s, 5) == Some(7);
    EarlierKeyMisses(4, "pasta");
    assert FindEntryFrom(s, 4) == Some(7);
    EarlierKeyMisses(3, "rice");
    assert FindEntryFrom(s, 3) == Some(7);
    EarlierKeyMisses(2, "chicken breast");
    assert FindEntryFrom(s, 2) == Some(7);
    EarlierKeyMisses(1, "banana");
    assert FindEntryFrom(s, 1) == Some(7);
    EarlierKeyMisses(0, "apple");
  }

  lemma EarlierKeyMisses(j: nat, key: string)
    requires j < |NutritionDb| && NutritionDb[j].0 == key && 'g' !in key && |key| > 3
    ensures !KeyMatches(NutritionDb[j].0, "egg")
  {
    MissingCharExcludes(key, "egg", 1);
    ContainsAt("egg", key);
  }
}

=== FILE: server_scoring.dfy ===
/**
 * The server's scoring helpers: the additive health-risk score with its factor list and
 * level, the 0-100 meal score, the letter grade, the BMI category, and the percentage
 * distribution of a list of BMIs over the four categories.
 */
module ServerScoring {
  import opened Rounding
  import opened Bmi

  /** A condition that adds to the risk score, in the order the conditions are checked. */
  datatype RiskFactor =
    | HighCalorie | ModerateHighCalorie
    | HighFat | ModerateHighFat
    | HighCarb
    | ObesityBmi | OverweightBmi

  /** Points a factor adds to the risk score. */
  function Weight(f: RiskFactor): nat {
    match f
    case HighCalorie => 2
    case ModerateHighCalorie => 1
    case HighFat => 2
    case ModerateHighFat => 1
    case HighCarb => 1
    case ObesityBmi => 2
    case OverweightBmi => 1
  }

  /** The text reported for a factor. */
  function Describe(f: RiskFactor): string {
    match f
    case HighCalorie => "High calorie intake"
    case ModerateHighCalorie => "Moderate-high calorie intake"
    case HighFat => "High fat content"
    case ModerateHighFat => "Moderate-high fat content"
    case HighCarb => "High carbohydrate content"
    case ObesityBmi => "Obesity BMI range"
    case OverweightBmi => "Overweight BMI range"
  }

  function TotalWeight(fs: seq<RiskFactor>): nat
    decreases |fs|
  {
    if fs == [] then 0 else Weight(fs[0]) + TotalWeight(fs[1..])
  }

  lemma {:induction false} TotalWeightAppend(a: seq<RiskFactor>, b: seq<RiskFactor>)
    ensures TotalWeight(a + b) == TotalWeight(a) + TotalWeight(b)
    decreases |a|
  {
    if a == [] {
      assert a + b == b;
    } else {
      assert (a + b)[0] == a[0];
      assert (a + b)[1..] == a[1..] + b;
      TotalWeightAppend(a[1..], b);
    }
  }

  datatype RiskLevel = LowRisk | ModerateRisk | HighRisk | VeryHighRisk

  datatype RiskAssessment = RiskAssessment(score: int, level: RiskLevel, factors: seq<RiskFactor>)

  /** The factor (at most one) a value contributes against a high and a moderate threshold. */
  function Tier(x: real, high: real, moderate: real, highFactor: RiskFactor, moderateFactor: RiskFactor)
    : (fs: seq<RiskFactor>)
    ensures |fs| <= 1
    ensures highFactor in fs <== x > high
    ensures moderateFactor in fs <== moderate < x <= high
    ensures fs == [] <==> x <= moderate && x <= high
  {
    if x > high then [highFactor] else if x > moderate then [moderateFactor] else []
  }

  /** Points of a tier: zero for no factor, the factor's weight otherwise. */
  function TierPoints(fs: seq<RiskFactor>): (w: nat)
    requires |fs| <= 1
    ensures w == TotalWeight(fs)
  {
    if fs == [] then 0 else Weight(fs[0])
  }

  /** The level a risk score falls in. */
  function LevelOf(score: nat): (l: RiskLevel)
    ensures l == LowRisk <==> score == 0
    ensures l == ModerateRisk <==> 1 <= score <= 2
    ensures l == HighRisk <==> 3 <= score <= 4
    ensures l == VeryHighRisk <==> score >= 5
  {
    if score == 0 then LowRisk
    else if score <= 2 then ModerateRisk
    else if score <= 4 then HighRisk
    else VeryHighRisk
  }

  function CalorieTier(calories: real): seq<RiskFactor> {
    Tier(calories, 1000.0, 800.0, HighCalorie, ModerateHighCalorie)
  }

  function FatTier(fats: real): seq<RiskFactor> {
    Tier(fats, 40.0, 25.0, HighFat, ModerateHighFat)
  }

  function CarbTier(carbs: real): seq<RiskFactor> {
    Tier(carbs, 100.0, 100.0, HighCarb, HighCarb)
  }

  function BmiTier(bmi: real): seq<RiskFactor> {
    Tier(bmi, 30.0, 25.0, ObesityBmi, OverweightBmi)
  }

  /**
   * The risk score of a meal eaten at a given BMI: one factor at most per calories, fats,
   * carbohydrates and BMI, each adding its weight to the score; the level follows the score.
   */
  function CalculateRiskScore(calories: real, fats: real, carbs: real, bmi: real): (r: RiskAssessment)
    ensures r.score == TotalWeight(r.factors)
    ensures r.score == (if calories > 1000.0 then 2 else if calories > 800.0 then 1 else 0)
                     + (if fats > 40.0 then 2 else if fats > 25.0 then 1 else 0)
                     + (if carbs > 100.0 then 1 else 0)
                     + (if bmi > 30.0 then 2 else if bmi > 25.0 then 1 else 0)
    ensures 0 <= r.score <= 7 && |r.factors| <= 4
    ensures r.level == LowRisk <==> r.score == 0
    ensures r.level == ModerateRisk <==> 1 <= r.score <= 2
    ensures r.level == HighRisk <==> 3 <= r.score <= 4
    ensures r.level == VeryHighRisk <==> r.score >= 5
  {
    var c, f, k, b := CalorieTier(calories), FatTier(fats), CarbTier(carbs), BmiTier(bmi);
    var score := TierPoints(c) + TierPoints(f) + TierPoints(k) + TierPoints(b);
    TierWeight(calories, 1000.0, 800.0, HighCalorie, ModerateHighCalorie);
    TierWeight(fats, 40.0, 25.0, HighFat, ModerateHighFat);
    TierWeight(carbs, 100.0, 100.0, HighCarb, HighCarb);
    TierWeight(bmi, 30.0, 25.0, ObesityBmi, OverweightBmi);
    TotalWeightAppend(c, f);
    TotalWeightAppend(c + f, k);
    TotalWeightAppend(c + f + k, b);
    RiskAssessment(score, LevelOf(score), c + f + k + b)
  }

  /** A tier is worth the high factor's weight above the high threshold, else the moderate one's above the moderate threshold. */
  lemma TierWeight(x: real, high: real, moderate: real, hf: RiskFactor, mf: RiskFactor)
    ensures TierPoints(Tier(x, high, moderate, hf, mf)) == if x > high then Weight(hf) else if x > moderate then Weight(mf) else 0
  {
  }

  /** Which factors a tier can hold. */
  lemma TierMembers(x: real, high: real, moderate: real, hf: RiskFactor, mf: RiskFactor, y: RiskFactor)
    ensures y in Tier(x, high, moderate, hf, mf) <==> (y == hf && x > high) || (y == mf && moderate < x <= high)
  {
  }

  /** Membership in the factor list: each factor is reported exactly when its own condition holds. */
  lemma RiskFactorsExact(calories: real, fats: real, carbs: real, bmi: real)
    ensures var fs := CalculateRiskScore(calories, fats, carbs, bmi).factors;
            && (HighCalorie in fs <==> calories > 1000.0)
            && (ModerateHighCalorie in fs <==> 800.0 < calories <= 1000.0)
            && (HighFat in fs <==> fats > 40.0)
            && (ModerateHighFat in fs <==> 25.0 < fats <= 40.0)
            && (HighCarb in fs <==> carbs > 100.0)
            && (ObesityBmi in fs <==> bmi > 30.0)
            && (OverweightBmi in fs <==> 25.0 < bmi <= 30.0)
            && forall i, j :: 0 <= i < j < |fs| ==> fs[i] != fs[j]
  {
    var c, f, k, b := CalorieTier(calories), FatTier(fats), CarbTier(carbs), BmiTier(bmi);
    assert CalculateRiskScore(calories, fats, carbs, bmi).factors == c + f + k + b;
    TiersInCheckOrder(calories, fats, carbs, bmi);
    FactorReported(calories, fats, carbs, bmi, HighCalorie);
    FactorReported(calories, fats, carbs, bmi, ModerateHighCalorie);
    FactorReported(calories, fats, carbs, bmi, HighFat);
    FactorReported(calories, fats, carbs, bmi, ModerateHighFat);
    FactorReported(calories, fats, carbs, bmi, HighCarb);
    FactorReported(calories, fats, carbs, bmi, ObesityBmi);
    FactorReported(calories, fats, carbs, bmi, OverweightBmi);
  }

  /** A factor is in the list exactly when it is in the tier of the value it is about. */
  lemma FactorReported(calories: real, fats: real, carbs: real, bmi: real, y: RiskFactor)
    ensures y in CalorieTier(calories) + FatTier(fats) + CarbTier(carbs) + BmiTier(bmi) <==>
      (y == HighCalorie && calories > 1000.0) || (y == ModerateHighCalorie && 800.0 < calories <= 1000.0)
      || (y == HighFat && fats > 40.0) || (y == ModerateHighFat && 25.0 < fats <= 40.0)
      || (y == HighCarb && carbs > 100.0)
      || (y == ObesityBmi && bmi > 30.0) || (y == OverweightBmi && 25.0 < bmi <= 30.0)
  {
    var c, f, k, b := CalorieTier(calories), FatTier(fats), CarbTier(carbs), BmiTier(bmi);
    MemberOfConcat(c, f, k, b, y);
    TierMembers(calories, 1000.0, 800.0, HighCalorie, ModerateHighCalorie, y);
    TierMembers(fats, 40.0, 25.0, HighFat, ModerateHighFat, y);
    TierMembers(carbs, 100.0, 100.0, HighCarb, HighCarb, y);
    TierMembers(bmi, 30.0, 25.0, ObesityBmi, OverweightBmi, y);
  }

  /** The response's `factors`: the text of each factor, in order. */
  function FactorTexts(fs: seq<RiskFactor>): (t: seq<string>)
    ensures |t| == |fs|
    ensures forall i :: 0 <= i < |fs| ==> t[i] == Describe(fs[i])
  {
    seq(|fs|, i requires 0 <= i < |fs| => Describe(fs[i]))
  }

  /** No text appears twice in the reported factors. */
  lemma FactorTextsDistinct(calories: real, fats: real, carbs: real, bmi: real)
    ensures var t := FactorTexts(CalculateRiskScore(calories, fats, carbs, bmi).factors);
            forall i, j :: 0 <= i < j < |t| ==> t[i] != t[j]
  {
    var fs := CalculateRiskScore(calories, fats, carbs, bmi).factors;
    RiskFactorsExact(calories, fats, carbs, bmi);
    DescribeInjective();
  }

  lemma DescribeInjective()
    ensures forall f, g :: Describe(f) == Describe(g) ==> f == g
  {
  }

  /** The value a factor is about: 0 calories, 1 fats, 2 carbohydrates, 3 BMI. */
  function Topic(f: RiskFactor): nat {
    match f
    case HighCalorie | ModerateHighCalorie => 0
    case HighFat | ModerateHighFat => 1
    case HighCarb => 2
    case ObesityBmi | OverweightBmi => 3
  }

  /** The factors come in the order the values are checked, at most one per value. */
  lemma TiersInCheckOrder(calories: real, fats: real, carbs: real, bmi: real)
    ensures var fs := CalorieTier(calories) + FatTier(fats) + CarbTier(carbs) + BmiTier(bmi);
            forall i, j :: 0 <= i < j < |fs| ==> Topic(fs[i]) < Topic(fs[j])
  {
    var c, f, k, b := CalorieTier(calories), FatTier(fats), CarbTier(carbs), BmiTier(bmi);
    assert forall i :: 0 <= i < |c| ==> Topic(c[i]) == 0;
    assert forall i :: 0 <= i < |f| ==> Topic(f[i]) == 1;
    assert forall i :: 0 <= i < |k| ==> Topic(k[i]) == 2;
    assert forall i :: 0 <= i < |b| ==> Topic(b[i]) == 3;
    TopicsIncrease(c, f, 1);
    TopicsIncrease(c + f, k, 2);
    TopicsIncrease(c + f + k, b, 3);
  }

  /** Appending factors about later values to an ordered list keeps it ordered. */
  lemma TopicsIncrease(a: seq<RiskFactor>, b: seq<RiskFactor>, t: nat)
    requires forall i, j :: 0 <= i < j < |a| ==> Topic(a[i]) < Topic(a[j])
    requires forall i :: 0 <= i < |a| ==> Topic(a[i]) < t
    requires |b| <= 1 && forall i :: 0 <= i < |b| ==> Topic(b[i]) == t
    ensures forall i, j :: 0 <= i < j < |a + b| ==> Topic((a + b)[i]) < Topic((a + b)[j])
    ensures forall i :: 0 <= i < |a + b| ==> Topic((a + b)[i]) <= t
  {
  }

  lemma MemberOfConcat<T>(a: seq<T>, b: seq<T>, c: seq<T>, d: seq<T>, y: T)
    ensures y in a + b + c + d <==> (y in a || y in b || y in c || y in d)
  {
  }

  lemma TierPointsMonotone(x1: real, x2: real, high: real, moderate: real, hf: RiskFactor, mf: RiskFactor)
    requires x1 <= x2 && moderate <= high && Weight(mf) <= Weight(hf)
    ensures TierPoints(Tier(x1, high, moderate, hf, mf)) <= TierPoints(Tier(x2, high, moderate, hf, mf))
  {
  }

  /** Higher calories, fats, carbohydrates or BMI never lower the risk score. */
  lemma RiskScoreMonotone(c1: real, f1: real, k1: real, b1: real, c2: real, f2: real, k2: real, b2: real)
    requires c1 <= c2 && f1 <= f2 && k1 <= k2 && b1 <= b2
    ensures CalculateRiskScore(c1, f1, k1, b1).score <= CalculateRiskScore(c2, f2, k2, b2).score
  {
    TierPointsMonotone(c1, c2, 1000.0, 800.0, HighCalorie, ModerateHighCalorie);
    TierPointsMonotone(f1, f2, 40.0, 25.0, HighFat, ModerateHighFat);
    TierPointsMonotone(k1, k2, 100.0, 100.0, HighCarb, HighCarb);
    TierPointsMonotone(b1, b2, 30.0, 25.0, ObesityBmi, OverweightBmi);
  }

  /** The meal score before rounding: 100, less a calorie penalty, plus protein and fiber bonuses, less a fat penalty. */
  function RawMealScore(calories: real, protein: real, fats: real, fiber: real): (s: real)
    ensures 55.0 <= s <= 120.0
  {
    var calorieCut := if calories > 800.0 then Min(30.0, (calories - 800.0) / 10.0) else 0.0;
    var proteinBonus := if protein > 20.0 then Min(10.0, (protein - 20.0) / 2.0) else 0.0;
    var fiberBonus := if fiber > 5.0 then Min(10.0, fiber) else 0.0;
    var fatCut := if fats > 30.0 && protein < 15.0 then 15.0 else 0.0;
    100.0 - calorieCut + proteinBonus + fiberBonus - fatCut
  }

  /** The meal score: the raw score rounded (ties to even) and kept within [0, 100]. Carbohydrates play no part. */
  function CalculateMealScore(calories: real, protein: real, carbs: real, fats: real, fiber: real): (s: int)
    ensures 0 <= s <= 100
    ensures s >= 55
  {
    var raw := RawMealScore(calories, protein, fats, fiber);
    PyRoundMonotone(55.0, raw);
    assert PyRound(55.0) == 55;
    var rounded := PyRound(raw);
    if rounded > 100 then 100 else if rounded < 0 then 0 else rounded
  }

  /** Fewer calories, less fat, more protein or more fiber never lower the meal score. */
  lemma MealScoreMonotone(c1: real, p1: real, k1: real, f1: real, x1: real,
                          c2: real, p2: real, k2: real, f2: real, x2: real)
    requires c2 <= c1 && p1 <= p2 && f2 <= f1 && x1 <= x2
    ensures CalculateMealScore(c1, p1, k1, f1, x1) <= CalculateMealScore(c2, p2, k2, f2, x2)
  {
    PyRoundMonotone(RawMealScore(c1, p1, f1, x1), RawMealScore(c2, p2, f2, x2));
  }

  /** A meal of at most 800 kcal with at least 40 g protein and 10 g fiber scores the full 100. */
  lemma FullMealScore(calories: real, protein: real, carbs: real, fats: real, fiber: real)
    requires calories <= 800.0 && protein >= 40.0 && fiber >= 10.0
    ensures CalculateMealScore(calories, protein, carbs, fats, fiber) == 100
  {
  }

  datatype Grade = A | B | C | D | F

  /** Position of a grade, best first. */
  function GradeRank(g: Grade): nat {
    match g
    case A => 0
    case B => 1
    case C => 2
    case D => 3
    case F => 4
  }

  /** The letter grade of a meal score: 90, 80, 70 and 60 are the lowest scores of A, B, C and D. */
  function GetMealGrade(score: int): (g: Grade)
    ensures g == A <==> score >= 90
    ensures g == B <==> 80 <= score < 90
    ensures g == C <==> 70 <= score < 80
    ensures g == D <==> 60 <= score < 70
    ensures g == F <==> score < 60
  {
    if score >= 90 then A
    else if score >= 80 then B
    else if score >= 70 then C
    else if score >= 60 then D
    else F
  }

  /** A higher score never gets a worse grade. */
  lemma GradeMonotone(s1: int, s2: int)
    requires s1 <= s2
    ensures GradeRank(GetMealGrade(s2)) <= GradeRank(GetMealGrade(s1))
  {
  }

  /** The server's BMI rule: half-open bands below 18.5, up to 25, up to 30, and from 30 on. */
  function GetBmiCategory(bmi: real): (c: BmiCategory)
    ensures c == Underweight <==> bmi < 18.5
    ensures c == Normal <==> 18.5 <= bmi < 25.0
    ensures c == Overweight <==> 25.0 <= bmi < 30.0
    ensures c == Obese <==> bmi >= 30.0
  {
    if bmi < 18.5 then Underweight
    else if bmi < 25.0 then Normal
    else if bmi < 30.0 then Overweight
    else Obese
  }

  /** A higher BMI never falls in a lighter category. */
  lemma BmiCategoryMonotone(b1: real, b2: real)
    requires b1 <= b2
    ensures Rank(GetBmiCategory(b1)) <= Rank(GetBmiCategory(b2))
  {
  }

  /** How many of `bmis` fall in category `c`. */
  function CountIn(bmis: seq<real>, c: BmiCategory): nat
    decreases |bmis|
  {
    if bmis == [] then 0
    else CountIn(bmis[..|bmis| - 1], c) + (if GetBmiCategory(bmis[|bmis| - 1]) == c then 1 else 0)
  }

  function SumCounts(counts: map<BmiCategory, int>): int
    requires AllCategories <= counts.Keys
  {
    counts[Underweight] + counts[Normal] + counts[Overweight] + counts[Obese]
  }

  /** Every BMI falls in exactly one category, so the four counts add up to the number of BMIs. */
  lemma {:induction false} CountsPartition(bmis: seq<real>)
    ensures CountIn(bmis, Underweight) + CountIn(bmis, Normal) + CountIn(bmis, Overweight) + CountIn(bmis, Obese) == |bmis|
    decreases |bmis|
  {
    if bmis != [] {
      CountsPartition(bmis[..|bmis| - 1]);
    }
  }

  /** The percentage a category's count is of the whole, as the server rounds it. */
  function Percentage(count: nat, total: nat): int
    requires total > 0
  {
    PyRound(count as real / total as real * 100.0)
  }

  /** The distribution keyed by the labels the server returns instead of by category. */
  function LabelledDistribution(dist: map<BmiCategory, int>): (r: map<string, int>)
    ensures r.Keys == set c | c in dist :: Name(c)
    ensures forall c :: c in dist ==> r[Name(c)] == dist[c]
  {
    forall a, b | a in dist && b in dist && Name(a) == Name(b) ensures a == b {
      NamesDistinct(a, b);
    }
    map c | c in dist :: Name(c) := dist[c]
  }

  /**
   * The BMI distribution: all four categories always present; all zero for no BMIs,
   * otherwise each category's share of the BMIs as a rounded percentage.
   */
  method CalculateBmiDistribution(bmis: seq<real>) returns (dist: map<BmiCategory, int>)
    ensures dist.Keys == AllCategories
    ensures bmis == [] ==> forall c :: c in dist ==> dist[c] == 0
    ensures bmis != [] ==> forall c :: c in dist ==> dist[c] == Percentage(CountIn(bmis, c), |bmis|)
  {
    dist := map[Underweight := 0, Normal := 0, Overweight := 0, Obese := 0];
    var i := 0;
    while i < |bmis|
      invariant 0 <= i <= |bmis|
      invariant dist.Keys == AllCategories
      invariant forall c :: c in dist ==> dist[c] == CountIn(bmis[..i], c)
    {
      assert bmis[..i + 1][..i] == bmis[..i];
      var category := GetBmiCategory(bmis[i]);
      dist := dist[category := dist[category] + 1];
      i := i + 1;
    }
    assert bmis[..i] == bmis;
    var total := SumCounts(dist);
    CountsPartition(bmis);
    if total > 0 {
      dist := map c | c in AllCategories :: Percentage(dist[c], total);
    }
  }

  /** A share is a percentage between 0 and 100. */
  lemma PercentageRange(count: nat, total: nat)
    requires 0 < total && count <= total
    ensures 0 <= Percentage(count, total) <= 100
  {
    var x := count as real / total as real * 100.0;
    assert count as real / total as real <= 1.0;
    PyRoundMonotone(0.0, x);
    PyRoundMonotone(x, 100.0);
    assert PyRound(0.0) == 0 && PyRound(100.0) == 100;
  }

  /** The four rounded percentages of a non-empty list add up to 100, give or take 2. */
  lemma PercentagesNearlySum(bmis: seq<real>)
    requires bmis != []
    ensures var n := |bmis|;
            98 <= Percentage(CountIn(bmis, Underweight), n) + Percentage(CountIn(bmis, Normal), n)
                  + Percentage(CountIn(bmis, Overweight), n) + Percentage(CountIn(bmis, Obese), n) <= 102
  {
    CountsPartition(bmis);
    RoundedSharesNearlySum(CountIn(bmis, Underweight), CountIn(bmis, Normal),
                           CountIn(bmis, Overweight), CountIn(bmis, Obese), |bmis|);
  }

  lemma RoundedSharesNearlySum(u: nat, m: nat, o: nat, b: nat, n: nat)
    requires n > 0 && u + m + o + b == n
    ensures 98 <= Percentage(u, n) + Percentage(m, n) + Percentage(o, n) + Percentage(b, n) <= 102
  {
    var t := n as real;
    var su, sm, so, sb := u as real / t * 100.0, m as real / t * 100.0, o as real / t * 100.0, b as real / t * 100.0;
    ExactSharesSum(u, m, o, b, n);
    assert su + sm + so + sb == 100.0;
    assert su - 0.5 <= Percentage(u, n) as real <= su + 0.5;
    assert sm - 0.5 <= Percentage(m, n) as real <= sm + 0.5;
    assert so - 0.5 <= Percentage(o, n) as real <= so + 0.5;
    assert sb - 0.5 <= Percentage(b, n) as real <= sb + 0.5;
  }

  /** Unrounded shares of a partition add up to exactly 100. */
  lemma ExactSharesSum(u: nat, m: nat, o: nat, b: nat, n: nat)
    requires n > 0 && u + m + o + b == n
    ensures var t := n as real;
            u as real / t * 100.0 + m as real / t * 100.0 + o as real / t * 100.0 + b as real / t * 100.0 == 100.0
  {
    var t := n as real;
    var U, M, O, B := u as real, m as real, o as real, b as real;
    DivAdd(U, M, t);
    DivAdd(U + M, O, t);
    DivAdd(U + M + O, B, t);
    assert U + M + O + B == t;
    assert (U + M + O + B) / t == t / t;
    DivSelf(t);
  }

  lemma DivAdd(a: real, b: real, t: real)
    requires t > 0.0
    ensures a / t + b / t == (a + b) / t
  {
  }

  lemma DivSelf(t: real)
    requires t > 0.0
    ensures t / t == 1.0
  {
  }
}

=== FILE: text.dfy ===
/**
 * String primitives used by the food matching and food-list rules: ASCII lower-casing,
 * substring containment, and whitespace trimming as done by JavaScript's `trim()` and
 * Python's `str.strip()`.
 */
module Text {

  predicate IsAsciiUpper(c: char) {
    'A' <= c <= 'Z'
  }

  /** Lower-cases one character; only the ASCII letters A-Z change. */
  function LowerChar(c: char): (d: char)
    ensures !IsAsciiUpper(d)
    ensures !IsAsciiUpper(c) ==> d == c
  {
    if IsAsciiUpper(c) then (c as int + 32) as char else c
  }

  /** `toLowerCase()` / `lower()`, restricted to ASCII letters. */
  function Lower(s: string): (r: string)
    ensures |r| == |s|
    ensures forall i :: 0 <= i < |s| ==> r[i] == LowerChar(s[i])
  {
    seq(|s|, i requires 0 <= i < |s| => LowerChar(s[i]))
  }

  /** Lower-casing an already lower-cased string changes nothing. */
  lemma LowerIdempotent(s: string)
    ensures Lower(Lower(s)) == Lower(s)
  {
  }

  /** `p` matches `s` at offset `i` from its `k`-th character on, compared one character at a time. */
  predicate MatchesFrom(s: string, p: string, i: nat, k: nat)
    requires i + |p| <= |s| && k <= |p|
    decreases |p| - k
  {
    k == |p| || (s[i + k] == p[k] && MatchesFrom(s, p, i, k + 1))
  }

  /** `p` occurs in `s` at some offset `i` or later. */
  predicate ContainsFrom(s: string, p: string, i: nat)
    decreases |s| - i
  {
    i + |p| <= |s| && (MatchesFrom(s, p, i, 0) || ContainsFrom(s, p, i + 1))
  }

  /** `p` occurs in `s` as a contiguous substring: Python's `p in s`, JavaScript's `s.includes(p)`. */
  predicate Contains(s: string, p: string) {
    ContainsFrom(s, p, 0)
  }

  /** `p` occurs in `s` starting at offset `i`. */
  predicate OccursAt(s: string, p: string, i: int) {
    0 <= i <= |s| - |p| && s[i..i + |p|] == p
  }

  lemma {:induction false} MatchesFromAgrees(s: string, p: string, i: nat, k: nat)
    requires i + |p| <= |s| && k <= |p|
    ensures MatchesFrom(s, p, i, k) <==> forall j :: k <= j < |p| ==> s[i + j] == p[j]
    decreases |p| - k
  {
    if k < |p| {
      MatchesFromAgrees(s, p, i, k + 1);
    }
  }

  lemma {:induction false} ContainsFromAt(s: string, p: string, i: nat)
    ensures ContainsFrom(s, p, i) <==> exists j :: i <= j && OccursAt(s, p, j)
    decreases |s| - i
  {
    if i + |p| <= |s| {
      MatchesFromAgrees(s, p, i, 0);
      assert MatchesFrom(s, p, i, 0) <==> OccursAt(s, p, i) by {
        if MatchesFrom(s, p, i, 0) {
          assert s[i..i + |p|] == p;
        }
      }
      ContainsFromAt(s, p, i + 1);
      if exists j :: i <= j && OccursAt(s, p, j) {
        var j :| i <= j && OccursAt(s, p, j);
        assert j == i || (i + 1 <= j && OccursAt(s, p, j));
      }
    }
  }

  /** `Contains` holds exactly when `p` sits at some offset of `s`. */
  lemma ContainsAt(s: string, p: string)
    ensures Contains(s, p) <==> exists i :: OccursAt(s, p, i)
  {
    ContainsFromAt(s, p, 0);
  }

  /** A string lacking one of the characters of `p` cannot contain `p`. */
  lemma MissingCharExcludes(s: string, p: string, k: nat)
    requires k < |p| && p[k] !in s
    ensures !Contains(s, p)
  {
    ContainsAt(s, p);
    forall i | 0 <= i <= |s| - |p|
      ensures !OccursAt(s, p, i)
    {
      assert s[i + k] in s;
    }
  }

  /** The empty string is a substring of every string. */
  lemma ContainsEmpty(s: string)
    ensures Contains(s, "")
  {
  }

  /** Every string contains itself. */
  lemma ContainsSelf(s: string)
    ensures Contains(s, s)
  {
    ContainsAt(s, s);
    assert OccursAt(s, s, 0);
  }

  /** JavaScript WhiteSpace and LineTerminator code points, the set `String.prototype.trim` removes. */
  predicate IsJsSpace(c: char) {
    || ('\t' <= c <= '\r') || c == ' ' || c == '\U{00A0}' || c == '\U{1680}'
    || ('\U{2000}' <= c <= '\U{200A}') || c == '\U{2028}' || c == '\U{2029}'
    || c == '\U{202F}' || c == '\U{205F}' || c == '\U{3000}' || c == '\U{FEFF}'
  }

  /** Code points for which Python's `str.isspace()` holds, the set `str.strip()` removes. */
  predicate IsPySpace(c: char) {
    || ('\t' <= c <= '\r') || ('\U{001C}' <= c <= ' ') || c == '\U{0085}' || c == '\U{00A0}'
    || c == '\U{1680}' || ('\U{2000}' <= c <= '\U{200A}') || c == '\U{2028}' || c == '\U{2029}'
    || c == '\U{202F}' || c == '\U{205F}' || c == '\U{3000}'
  }

  /** Number of leading characters of `s` that satisfy `space`. */
  function LeadingCount(s: string, space: char -> bool): (n: nat)
    ensures n <= |s|
    ensures forall k :: 0 <= k < n ==> space(s[k])
    ensures n == |s| || !space(s[n])
    decreases |s|
  {
    if |s| > 0 && space(s[0]) then 1 + LeadingCount(s[1..], space) else 0
  }

  /** Index where the trailing run of `space` characters of `s` begins. */
  function TrailingStart(s: string, space: char -> bool): (n: nat)
    ensures n <= |s|
    ensures forall k :: n <= k < |s| ==> space(s[k])
    ensures n == 0 || !space(s[n - 1])
    decreases |s|
  {
    if |s| > 0 && space(s[|s| - 1]) then TrailingStart(s[..|s| - 1], space) else |s|
  }

  /** `r` is `s` with only `space` characters cut off before offset `i` and after `r`. */
  predicate TrimmedAt(s: string, r: string, i: int, space: char -> bool) {
    && OccursAt(s, r, i)
    && (forall k :: 0 <= k < i ==> space(s[k]))
    && (forall k :: i + |r| <= k < |s| ==> space(s[k]))
  }

  /** `s` with its leading and trailing `space` characters removed. */
  function Trim(s: string, space: char -> bool): (r: string)
    ensures r == [] || (!space(r[0]) && !space(r[|r| - 1]))
    ensures exists i :: TrimmedAt(s, r, i, space)
  {
    var i := LeadingCount(s, space);
    if i == |s| then
      assert TrimmedAt(s, [], i, space);
      []
    else
      var j := TrailingStart(s, space);
      assert i < j;
      assert TrimmedAt(s, s[i..j], i, space);
      s[i..j]
  }

  /** JavaScript's `s.trim()`. */
  function JsTrim(s: string): string {
    Trim(s, IsJsSpace)
  }

  /** Python's `s.strip()` with no argument. */
  function PyStrip(s: string): string {
    Trim(s, IsPySpace)
  }
}
